=== FILE: README.md ===
# ERP accounting API core — a Dafny model

This project models four pieces of the ERP accounting back end:

- **Document line items with optimistic concurrency**
  (`DocumentLineItemsController`). Each row carries a database row version. Clients
  see it as an entity tag: the base64 text of the version's bytes, wrapped in double
  quotes in the `ETag` header. A PATCH must present the tag in `If-Match`:
  - a missing or empty header is refused with 400;
  - a header that is not base64 once its quotes are stripped is refused with 400;
  - an absent, foreign or soft-deleted row is answered with 404;
  - a stale tag is answered with 409 and the live tag;
  - otherwise the present fields are merged into the row, which is saved and
    re-stamped.

  DELETE is a soft delete. Listing and single-row reads skip deleted rows.
- **Entity change capture** (`AppDbContext`). When an audit header id is set and an
  audit service is present, a save first walks the change tracker. It collects
  per-property old/new values for added, modified and deleted entities, except the
  audit tables themselves and row-version or internal properties. These go into a
  dictionary keyed `"Type:PK"`. The save then commits, logs one entity change per
  captured entity (swallowing per-entity failures) and clears the header id.
- **API audit middleware** (`ApiAuditMiddleware`). It prepares an audit header with
  a size-capped copy of the request body and creates the header before running the
  pipeline. It publishes the header id in the request items and buffers the
  response. Afterwards it updates the header with status, success flag, timing and a
  size-capped copy of the response body. On any exception it records the failure,
  swallows a failing update of that record, and re-throws.
- **Lookup search guards** (`LookupService`). This covers:
  - the validity rule for search terms;
  - the `LIKE` pattern a term is searched with;
  - the clamped row limit;
  - the default document type of the org-unit combo.

Files:

- `Wrappers.dfy`: `Option`.
- `Text.dfy`: the .NET string operations the core relies on:
  - `IsNullOrWhiteSpace`, `IsNullOrEmpty`;
  - `Trim()` and `Trim(char)`;
  - `StartsWith`, `EndsWith`, `Contains`;
  - decimal formatting.
- `Base64.dfy`: `Convert.ToBase64String` and `Convert.FromBase64String`, following
  section 4 of RFC 4648.
- `LineItems.dfy`: the line-item endpoints and their tag protocol.
- `ChangeCapture.dfy`: the database context's change capture and save.
- `ApiAudit.dfy`: the audit middleware.
- `Lookup.dfy`: the lookup guards.

Imperative parts are classes:

- `LineItemStore` (the table as the controller sees it);
- `AuditingContext` (the database context's audit state and change tracker);
- `HttpContext`, `Stream` and `AuditLogService` for the middleware.

Their methods are proved against pure specification functions: `CheckIfMatch`,
`MergePatch`, `Persisted`, `CaptureAll`, `LogCalls` and `Expected`. Lemmas state the
promised properties of those functions.

Inputs stand in for what the code reads from its environment:

- clocks (`now`, `Environment.timestamp`, `elapsedMs`);
- generated identifiers (the correlation id, the audit id that `LogAsync` assigns);
- what streams yield when read (`ReadOutcome`, `Body`);
- whether a call into the audit service throws (`ServiceScript`, the `failing` set);
- what the rest of the pipeline does (`Downstream`);
- whether copying the buffered response to the client's stream throws (`CopyScript`);
- whether the database commit succeeds (`CommitOutcome`).

Where the code does less than its own comments suggest, the model follows the code:

- Audit failures are not always swallowed. The comments at
  `src/ERPAccounting.Infrastructure/Middleware/ApiAuditMiddleware.cs:133` and
  `src/ERPAccounting.Infrastructure/Data/AppDbContext.cs:181` say that an audit failure
  must not break the request or the transaction. That holds only in those two places:
  - the update in the middleware's exception handler;
  - the per-entity change logging.

  An exception from `LogAsync` or from the normal-path `UpdateAsync` falls into the
  middleware's catch block and is re-thrown (`ApiAudit.AuditFailuresPropagate`). A
  failing `LogAsync` even stops the request before the pipeline runs.
- The audit header id is reset after every save that commits
  (`src/ERPAccounting.Infrastructure/Data/AppDbContext.cs:81-82`), not once per request.
  A second save in the same request therefore captures nothing.
- Added entities are keyed by their temporary key. The comment at
  `src/ERPAccounting.Infrastructure/Data/AppDbContext.cs:75` says changes are logged
  after the save so that new entities' ids are available. But the capture runs before
  the commit (`src/ERPAccounting.Infrastructure/Data/AppDbContext.cs:67-73`), and the
  logging uses what was captured then. So an added entity with a generated key is keyed
  `"Type:PK"` and logged with the temporary value EF Core holds before the insert, not
  the database id. `ChangeCapture.PrimaryKeyValue` takes the value held at capture time.
- A stale tag is answered with 409 Conflict. Section 13.1.1 of RFC 9110 would answer
  a failed `If-Match` with 412.

## Model

| member | source | states |
|---|---|---|
| Text.TrimBy | src/ERPAccounting.API/Controllers/DocumentLineItemsController.cs:258 | `Trim(c)`: the result is the part of the input that starts after the leading run of removable characters. Neither end of the result is removable, and everything cut away on either side is removable. |
| Text.TrimByIdempotent | src/ERPAccounting.API/Controllers/DocumentLineItemsController.cs:258 | Trimming a trimmed string changes nothing. |
| Text.TrimByWrapped | src/ERPAccounting.API/Controllers/DocumentLineItemsController.cs:258 | A tag without quote characters, wrapped in quotes, trims back to exactly the tag. |
| Text.NatToString | src/ERPAccounting.Infrastructure/Middleware/ApiAuditMiddleware.cs:170 | The length in the placeholder is written as non-empty decimal digits without a leading zero. |
| Text.DecimalRoundTrip | src/ERPAccounting.Infrastructure/Middleware/ApiAuditMiddleware.cs:170 | Reading the written digits back gives the number. |
| Text.ContainsInfix | src/ERPAccounting.Infrastructure/Data/AppDbContext.cs:195 | A string that has the part somewhere inside it contains the part. |
| Text.ContainsHasPosition | src/ERPAccounting.Infrastructure/Data/AppDbContext.cs:195 | When `Contains` holds there is an index at which the part occurs. |
| Text.ContainsAt | src/ERPAccounting.Infrastructure/Data/AppDbContext.cs:195 | A part that occurs at some position of a string is contained in it: the converse of `ContainsHasPosition`. |
| Text.Utf16Length | src/ERPAccounting.Application/Services/LookupService.cs:118 | `Length` counts UTF-16 code units: at least one and at most two per character, and exactly one per character exactly when every character lies in the Basic Multilingual Plane. |
| Base64.EncodeSextet | src/ERPAccounting.API/Controllers/DocumentLineItemsController.cs:109 | Each 6-bit value becomes a character of the RFC 4648 alphabet that is not the pad and decodes back to that value. |
| Base64.Encode | src/ERPAccounting.API/Controllers/DocumentLineItemsController.cs:109 | `ToBase64String`: non-empty input gives at least one four-character quantum. Its length, alphabet and inverse are the lemmas below. |
| Base64.DecodeCharInverse | src/ERPAccounting.API/Controllers/DocumentLineItemsController.cs:259 | Every character the decoder accepts is the encoding of the value it decodes to. |
| Base64.EncodeLength | src/ERPAccounting.API/Controllers/DocumentLineItemsController.cs:109 | The encoding has four characters for every started group of three bytes. |
| Base64.EncodeAlphabet | src/ERPAccounting.API/Controllers/DocumentLineItemsController.cs:109 | The encoding uses only alphabet characters and `=`, so it never contains a double quote. |
| Base64.DecodeQuantum | src/ERPAccounting.API/Controllers/DocumentLineItemsController.cs:259 | A decoded quantum holds one to three bytes, and exactly three unless it is the last one. |
| Base64.Decode | src/ERPAccounting.API/Controllers/DocumentLineItemsController.cs:259 | `FromBase64String`: only a text made of whole four-character quanta decodes, and never to more bytes than it has characters. `DecodeAccepts` gives exactly which texts decode. |
| Base64.QuantumRoundTrip | src/ERPAccounting.API/Controllers/DocumentLineItemsController.cs:259 | A quantum made from one, two or three bytes decodes back to those bytes. |
| Base64.DecodeEncode | src/ERPAccounting.API/Controllers/DocumentLineItemsController.cs:259 | Decoding an encoding gives back the bytes: `Decode(Encode(b)) == Some(b)`. |
| Base64.EncodeInjective | src/ERPAccounting.API/Controllers/DocumentLineItemsController.cs:109 | Two byte strings have the same encoding exactly when they are equal. |
| Base64.DecodeRejectsLength | src/ERPAccounting.API/Controllers/DocumentLineItemsController.cs:259-264 | Input whose length is not a multiple of four is rejected, which the PATCH answers with 400. |
| Base64.DecodeLength | src/ERPAccounting.API/Controllers/DocumentLineItemsController.cs:259 | Whatever decodes re-encodes to a text as long as the input: every accepted text holds exactly the bytes that fill its quanta. |
| Base64.QuantumDecodes | src/ERPAccounting.API/Controllers/DocumentLineItemsController.cs:259 | A quantum decodes exactly when it has four alphabet digits, or two or three digits followed by padding in the last quantum. |
| Base64.DecodeAccepts | src/ERPAccounting.API/Controllers/DocumentLineItemsController.cs:259-264 | Decoding succeeds exactly for canonical text, stated without the decoder. A length not divisible by four is rejected, and so are a character outside the alphabet, a pad before the last two positions, and a pad followed by a digit. Each of these is what the PATCH answers with 400. |
| Base64.ForeignCharRejected | src/ERPAccounting.API/Controllers/DocumentLineItemsController.cs:259-264 | A tag such as `ab$d`, with a character outside the alphabet, does not decode. |
| LineItems.StampValueOf | src/ERPAccounting.API/Controllers/DocumentLineItemsController.cs:278 | The stamp bytes of a row version read back as that version. |
| LineItems.StampInjective | src/ERPAccounting.API/Controllers/DocumentLineItemsController.cs:278 | The byte-for-byte stamp comparison holds exactly when the row versions are equal. |
| LineItems.ETagRoundTrip | src/ERPAccounting.API/Controllers/DocumentLineItemsController.cs:255-260 | The header the server issues, with its quotes stripped and decoded as a PATCH does, gives back the stamp it was made from. |
| LineItems.IssuedTagMatches | src/ERPAccounting.API/Controllers/DocumentLineItemsController.cs:278 | A header issued for one version decodes to another version's stamp exactly when the two versions are equal. |
| LineItems.TrimQuotes | src/ERPAccounting.API/Controllers/DocumentLineItemsController.cs:258 | `Trim('"')`: the result neither starts nor ends with a double quote, and a text without double quotes is left unchanged. |
| LineItems.ToDto | src/ERPAccounting.API/Controllers/DocumentLineItemsController.cs:113-133 | The DTO shows every stored field of the row under its identity, with the 0/1 flags as booleans. Its `etag` is the row's tag, which decodes to the row's stamp. |
| LineItems.NewItem | src/ERPAccounting.API/Controllers/DocumentLineItemsController.cs:164-179 | A new row carries the document and every posted field: article, quantity, price, tax rate, description, and discount and margin (0 when absent). The flags are stored as 0/1. Created and updated times equal now, the row is not deleted, its tax percent, tax amount and total start at 0, and its version is the one the insert gets. |
| LineItems.MergePatch | src/ERPAccounting.API/Controllers/DocumentLineItemsController.cs:299-323 | Each field present in the patch overwrites the row's; each absent one is left as it was; every field outside the patch is unchanged; `updatedAt` becomes now. |
| LineItems.Persisted | src/ERPAccounting.API/Controllers/DocumentLineItemsController.cs:326 | A save leaves the row exactly as it was when nothing changed; otherwise the row takes the new values and the next row version. |
| LineItems.CheckIfMatch | src/ERPAccounting.API/Controllers/DocumentLineItemsController.cs:246-295 | Each verdict holds exactly under its condition. "Missing tag" is a missing or empty header. "Malformed" is a header that does not decode once trimmed of quotes. "Absent" is a header that decodes with no live row. "Stale" is a live row whose stamp differs from the decoded bytes, and it carries the live tag. "Proceed" is a live row whose stamp equals them. |
| LineItems.MissingTagFirst | src/ERPAccounting.API/Controllers/DocumentLineItemsController.cs:246-251 | A missing or empty header is refused whatever the row lookup would find. |
| LineItems.IssuedHeaderCheck | src/ERPAccounting.API/Controllers/DocumentLineItemsController.cs:278-295 | A header issued for a version passes the check while the row is still at that version; otherwise the check reports a conflict carrying the live tag. |
| LineItems.LineItemStore.Lookup | src/ERPAccounting.API/Controllers/DocumentLineItemsController.cs:101-105 | A row is found exactly when it exists, belongs to the document and is not soft-deleted. |
| LineItems.LineItemStore.GetItems | src/ERPAccounting.API/Controllers/DocumentLineItemsController.cs:50-80 | The listing holds the DTO of every live row of the document and nothing else. |
| LineItems.LineItemStore.GetItem | src/ERPAccounting.API/Controllers/DocumentLineItemsController.cs:97-135 | A missing, foreign or deleted row gives 404. Otherwise the result is 200 with the row's DTO and the quoted tag, and that header decodes back to the stored stamp. |
| LineItems.LineItemStore.CreateItem | src/ERPAccounting.API/Controllers/DocumentLineItemsController.cs:154-209 | An unknown document gives 404 and nothing changes. Otherwise one new row is added under a fresh identity. The result is 201 with its DTO (tax percent and amount shown as 0), and the `ETag` header is the DTO's tag in quotes. The `Location` route names the new row's document and id, the values `GetItem` is addressed by. |
| LineItems.LineItemStore.Save | src/ERPAccounting.API/Controllers/DocumentLineItemsController.cs:326 | The saved row is as `Persisted` gives it; a changed row gets a version no row had before. |
| LineItems.LineItemStore.ApplyPatch | src/ERPAccounting.API/Controllers/DocumentLineItemsController.cs:299-323 | The field-by-field in-place assignments produce exactly `MergePatch`. |
| LineItems.LineItemStore.UpdateItem | src/ERPAccounting.API/Controllers/DocumentLineItemsController.cs:237-356 | The PATCH answers as `CheckIfMatch` decides on the row before the call. 400, 404 and 409 leave the store unchanged, and 409 carries the live tag. On success only this row changes: it becomes the persisted merge-patch. The answer is 200 with the DTO of the patched row, and the `ETag` header is the DTO's new tag in quotes. |
| LineItems.LineItemStore.DeleteItem | src/ERPAccounting.API/Controllers/DocumentLineItemsController.cs:380-394 | A row that is not live gives 404 and nothing changes. Otherwise only this row changes, by being marked deleted; no tag is needed, and the answer is 204. |
| ChangeCapture.ShouldAuditProperty | src/ERPAccounting.Infrastructure/Data/AppDbContext.cs:190-203 | An audited name does not end in `TimeStamp`, does not start with `__`, and has `RowVersion` at no position. |
| ChangeCapture.ExcludedNames | src/ERPAccounting.Infrastructure/Data/AppDbContext.cs:190-203 | Names ending in `TimeStamp`, containing `RowVersion` or starting with `__` are never audited. |
| ChangeCapture.ExcludedNameShape | src/ERPAccounting.Infrastructure/Data/AppDbContext.cs:190-203 | Conversely, a name that is not audited has one of those three shapes. |
| ChangeCapture.PrimaryKeyValue | src/ERPAccounting.Infrastructure/Data/AppDbContext.cs:208-212 | The key is the current value of the first primary-key property; it is "UNKNOWN" when there is none or its value is null. |
| ChangeCapture.FieldChanges | src/ERPAccounting.Infrastructure/Data/AppDbContext.cs:109-146 | Only audited names are recorded, and an entry that is neither added, modified nor deleted records nothing. |
| ChangeCapture.FieldChangesSpec | src/ERPAccounting.Infrastructure/Data/AppDbContext.cs:109-146 | The field changes of an entry are exactly the recorded properties: each name present comes from a recorded property of that name, with that property's change, and every recorded property's name is present. |
| ChangeCapture.FieldChangesLast | src/ERPAccounting.Infrastructure/Data/AppDbContext.cs:109-146 | The change kept under a name is that of the last recorded property with that name: a later one overwrites an earlier one. |
| ChangeCapture.FieldChangesShape | src/ERPAccounting.Infrastructure/Data/AppDbContext.cs:109-146 | Every recorded field is audited. Added entries record (null, current), deleted ones (original, null) and modified ones (original, current) of flagged properties only. Other states record nothing. |
| ChangeCapture.Put | src/ERPAccounting.Infrastructure/Data/AppDbContext.cs:148-152 | Writing a dictionary entry keeps keys unique. The new entry is present, and the entries with other keys are kept. |
| ChangeCapture.CaptureAll | src/ERPAccounting.Infrastructure/Data/AppDbContext.cs:90-156 | The captured dictionary has one entry per key. |
| ChangeCapture.CaptureSound | src/ERPAccounting.Infrastructure/Data/AppDbContext.cs:94-152 | Every captured entry is the capture of a tracker entry that is added, modified or deleted, is not an audit entity, and has at least one field change. |
| ChangeCapture.CaptureComplete | src/ERPAccounting.Infrastructure/Data/AppDbContext.cs:148-152 | A contributing entry whose key no later contributing entry repeats is captured as it is, so a later entry with the same key overwrites an earlier one. |
| ChangeCapture.CapturedShape | src/ERPAccounting.Infrastructure/Data/AppDbContext.cs:94-152 | Every captured entity has an operation label of Added, Modified or Deleted, is not an audit entity, is keyed `Type:PK`, and has at least one change, all on audited fields. |
| ChangeCapture.LogCalls | src/ERPAccounting.Infrastructure/Data/AppDbContext.cs:161-185 | One logging call per captured entity, in dictionary order and with the header id. A failing call is recorded as such and does not stop the others. |
| ChangeCapture.AuditingContext.SetCurrentAuditLogId | src/ERPAccounting.Infrastructure/Data/AppDbContext.cs:53-56 | Later saves attach their changes to this header id. |
| ChangeCapture.AuditingContext.CaptureEntityChanges | src/ERPAccounting.Infrastructure/Data/AppDbContext.cs:90-156 | The nested loops over entries and properties build exactly `CaptureAll` of the tracker entries. |
| ChangeCapture.AuditingContext.LogCapturedChanges | src/ERPAccounting.Infrastructure/Data/AppDbContext.cs:161-185 | With a service and a header id, the calls made are exactly `LogCalls`; otherwise none are made. |
| ChangeCapture.AuditingContext.SaveChanges | src/ERPAccounting.Infrastructure/Data/AppDbContext.cs:62-85 | A failing commit re-throws and keeps the header id, the tracker and the calls. A successful commit returns its count whatever logging does. It clears the tracker and the header id, and logs `LogCalls` of the capture of the pre-save tracker only when a header id and a service were present. |
| ApiAudit.Captured | src/ERPAccounting.Infrastructure/Middleware/ApiAuditMiddleware.cs:192-207 | Body text is kept unless blank, and a read error becomes the `[Error reading body: …]` note. |
| ApiAudit.RequestBody | src/ERPAccounting.Infrastructure/Middleware/ApiAuditMiddleware.cs:154-208 | Nothing is recorded for an absent or zero length or for OPTIONS. Above 10 MiB the `[Body too large: N bytes]` placeholder is recorded. Otherwise the captured text is recorded. |
| ApiAudit.ResponseBody | src/ERPAccounting.Infrastructure/Middleware/ApiAuditMiddleware.cs:213-247 | Nothing is recorded for an empty buffer. Above 10 MiB the placeholder is recorded. Otherwise the captured text is recorded. |
| ApiAudit.BodyLimitBoundary | src/ERPAccounting.Infrastructure/Middleware/ApiAuditMiddleware.cs:168-171 | A body of exactly 10 MiB is captured, and one byte more gets the placeholder, which reads back as 10485761. |
| ApiAudit.FailureStatus | src/ERPAccounting.Infrastructure/Middleware/ApiAuditMiddleware.cs:116-118 | After an exception the recorded status is always positive. It is the response status at that moment when that is positive (ASP.NET's default 200 when the pipeline set none), and 500 otherwise. |
| ApiAudit.Draft | src/ERPAccounting.Infrastructure/Middleware/ApiAuditMiddleware.cs:49-64 | The prepared header records the start time and a fresh correlation id. It records the method, the path (empty when absent) as both endpoint and request path, the query string, the client address, the user agent, the user id and name, and the request-body capture. It has no id, no status, no success, no error and no response yet. |
| ApiAudit.Failed | src/ERPAccounting.Infrastructure/Middleware/ApiAuditMiddleware.cs:113-125 | The exception handler marks the header failed with the failure status, the exception's message and details, the elapsed time, and the capture of whatever response was buffered. It touches nothing else. |
| ApiAudit.Finished | src/ERPAccounting.Infrastructure/Middleware/ApiAuditMiddleware.cs:98-103 | The normal path records the status, sets success exactly for 200–399, and records the elapsed time and the response-body capture. It touches nothing else. |
| ApiAudit.Handler | src/ERPAccounting.Infrastructure/Middleware/ApiAuditMiddleware.cs:111-141 | The exception handler makes one update recording the failure; a failing update is swallowed. The handled exception is re-thrown, unless the handler's copy of a non-empty buffer throws; then the copy's exception escapes in its place. The client gets the body exactly when the buffer is non-empty and that copy goes through. |
| ApiAudit.Dispatched | src/ERPAccounting.Infrastructure/Middleware/ApiAuditMiddleware.cs:93-141 | After a successful create, one or two updates follow, all carrying the assigned id. The request completes exactly when the pipeline returns, the update succeeds and copying a non-empty buffer to the client does not throw. It then makes a single successful `Finished` update. Otherwise the last update records failure. It carries the re-thrown exception's message unless the handler's own copy threw, whose exception then escapes. The client gets the body at most once, and exactly when it is non-empty and the last copy attempted goes through. |
| ApiAudit.Expected | src/ERPAccounting.Infrastructure/Middleware/ApiAuditMiddleware.cs:40-149 | The first call creates the prepared header, and at least one update follows. The pipeline runs exactly when the create succeeds. The request completes exactly when the create, the pipeline, the update and the copy to the client all succeed. A failed create re-throws its exception, and nothing reaches the client. The client gets at most one copy of the buffered body. |
| ApiAudit.HeaderCreatedFirst | src/ERPAccounting.Infrastructure/Middleware/ApiAuditMiddleware.cs:73-93 | The header is created first and exactly once, and every later call is an update, with at least one. The pipeline runs exactly when the create succeeded. |
| ApiAudit.PublishedId | src/ERPAccounting.Infrastructure/Middleware/ApiAuditMiddleware.cs:76-90 | The id is put in the request items exactly when `LogAsync` assigned a positive id, and every update carries the assigned id. |
| ApiAudit.NormalCompletion | src/ERPAccounting.Infrastructure/Middleware/ApiAuditMiddleware.cs:95-109 | When the pipeline returns, the update succeeds and the copy to the client does not throw, the middleware completes. The one update records the status, success exactly for 200–399, the response capture, and no error. A non-empty body reaches the client once. |
| ApiAudit.CopyFailureAfterUpdate | src/ERPAccounting.Infrastructure/Middleware/ApiAuditMiddleware.cs:106-141 | When the copy to the client throws after a successful update, a second update records the copy's exception as a failure with the failure status. The copy's exception is re-thrown unless the handler's second copy throws too; then that one escapes. The client gets the body only when the second copy goes through. |
| ApiAudit.PipelineException | src/ERPAccounting.Infrastructure/Middleware/ApiAuditMiddleware.cs:111-141 | When the pipeline throws, the update records failure and the message. The status is the one the response had when the exception arose: ASP.NET's default 200 if the pipeline set none, and 500 only when it is not positive. The original exception is re-thrown whether or not that update fails, unless the handler's copy of a non-empty buffer to the client throws; then the copy's exception escapes instead. |
| ApiAudit.AuditFailuresPropagate | src/ERPAccounting.Infrastructure/Middleware/ApiAuditMiddleware.cs:74-141 | A throwing `LogAsync` or normal-path `UpdateAsync` is re-thrown, with the last update recording failure. A throwing handler copy escapes in its place. A throwing `LogAsync` means the pipeline never runs. |
| ApiAudit.CopyResponseBody | src/ERPAccounting.Infrastructure/Middleware/ApiAuditMiddleware.cs:252-260 | An empty buffer delivers nothing and cannot fail. A non-empty one is delivered to the original stream unless the stream throws. In that case the stream's exception is returned and nothing is recorded as delivered. |
| ApiAudit.RecordFailure | src/ERPAccounting.Infrastructure/Middleware/ApiAuditMiddleware.cs:111-141 | The catch block makes exactly the update and the delivery of `Handler`, and ends as it says. It re-throws the handled exception, or the copy's exception when the copy throws. |
| ApiAudit.RunPipeline | src/ERPAccounting.Infrastructure/Middleware/ApiAuditMiddleware.cs:93-109 | The steps after the header is created make exactly the calls of `Dispatched` and end as it says. They leave the request items alone, take the pipeline's status, and deliver to the client exactly what `Dispatched` says. A copy that throws on the normal path goes to the exception handler. |
| ApiAudit.InvokeAsync | src/ERPAccounting.Infrastructure/Middleware/ApiAuditMiddleware.cs:40-149 | The middleware makes the audit calls and ends as `Expected` says. It publishes the id as `Expected` says and delivers to the client exactly what `Expected` says. It always puts the original response stream back. |
| Lookup.IsValidSearchTerm | src/ERPAccounting.Application/Services/LookupService.cs:118 | A term passes exactly when it is present, something is left after trimming it, and it is at least two UTF-16 code units long before trimming. `SearchArticlesAsync` uses the same guard at line 173. |
| Lookup.ClampLimit | src/ERPAccounting.Application/Services/LookupService.cs:126 | The row limit is always within 1–100: unchanged inside that range, 1 below it and 100 above it. |
| Lookup.SearchPattern | src/ERPAccounting.Application/Services/LookupService.cs:125 | The pattern is the trimmed term between two `%` wildcards. |
| Lookup.SearchPlan | src/ERPAccounting.Application/Services/LookupService.cs:116-126 | A query is made exactly for a term that passes the guard. It uses the term's pattern and a limit within 1–100, unchanged when already in range (the default is 50). `SearchArticlesAsync` at lines 171-181 follows the same rules. |
| Lookup.SearchResults | src/ERPAccounting.Application/Services/LookupService.cs:118-158 | An invalid term gives the empty list; a query gives its rows. |
| Lookup.TrimBlank | src/ERPAccounting.Application/Services/LookupService.cs:118-125 | Trimming leaves nothing exactly when the term is blank. |
| Lookup.QueriedPatternNotBlank | src/ERPAccounting.Application/Services/LookupService.cs:118-125 | Every query searches for at least one character, and that text is not blank at either end. |
| Lookup.PaddedShortTermPasses | src/ERPAccounting.Application/Services/LookupService.cs:118-125 | The length check uses the untrimmed term. `" a"` is queried as `%a%`, while `"a"` is refused. |
| Lookup.SupplementaryTermQueried | src/ERPAccounting.Application/Services/LookupService.cs:118-125 | A single character outside the Basic Multilingual Plane is two code units long, so it is queried on its own. |
| Lookup.DefaultLimitKept | src/ERPAccounting.Application/Services/LookupService.cs:116-126 | A caller that gives no limit is queried with the default of 50 rows, which the clamp leaves unchanged. |
| Lookup.EffectiveDocumentTypeId | src/ERPAccounting.Application/Services/LookupService.cs:44-48 | An absent or blank document type becomes "UR"; any other is passed through unchanged; the result is never blank. |

## Left out

- Database access is not modelled: SQL, Dapper, the stored-procedure gateway, `DbSet` queries and the commit itself. The line-item table is a map. A commit is an input outcome, and the org-unit and search queries are not modelled beyond their inputs and the rows they return.
- `OnModelCreating` and the entity mappings are not modelled: they are declarative configuration with no behaviour of their own.
- The `MapTo*` field copies and the combo DTO records are not modelled.
- LineItems.LineItemStore.Save: the 8-byte SQL Server row version is modelled as an unbounded counter handed out by the database. Its bytes are written big-endian without leading zero bytes. The model keeps the property the protocol needs: a changed row gets a version no row had before, and equal bytes mean equal versions.
- Base64.Decode: .NET's `FromBase64String` skips white space inside its input; the model rejects it. Tags the server issues never contain white space.
- The concurrency between a PATCH's read and its save is not modelled. This includes EF's own concurrency check and the `DbUpdateException` / 500 paths of every endpoint; each request runs alone.
- `CreatedBy` and `UpdatedBy` on line items are not modelled, because no modelled code sets them.
- Line-item fields the database computes (`Total`, `TaxAmount`, `TaxPercent`) are kept as stored values, 0 for a new row; the triggers that compute them are not part of this model.
- Money amounts are integers; decimal precision is not modelled.
- GET /items returns a set: the list order the database produces is not specified.
- How the pieces are wired is not modelled: dependency injection, middleware registration, and how `HttpContext.Items` reaches `SetCurrentAuditLogId`. Which saves carry an audit id is therefore an input of each save.
- ChangeCapture.CaptureAll: the captured dictionary is modelled with insertion order. Overwriting a key keeps its slot, which is the enumeration order of .NET's `Dictionary` when nothing is removed.
- Entity property values are opaque display strings (`Value`). The `ToString()` of the key value is not modelled beyond null becoming "UNKNOWN".
- `StartsWith`, `EndsWith` and `Contains` on property names are compared ordinally. Culture-sensitive comparison is not modelled.
- Stream handling in the middleware is not modelled: `EnableBuffering`, stream positions, `StreamReader` decoding, stream disposal, `Stopwatch`, `Guid.NewGuid` and `DateTime.UtcNow`. Body lengths, read results, times and ids are inputs.
- ApiAudit.CopyResponseBody: a copy that throws is taken to have delivered nothing. The bytes `CopyToAsync` wrote before failing are not modelled, nor the whole body when only `FlushAsync` throws. Whether each copy throws is an input.
- Logging calls are not modelled; they have no effect on the outcome.
- The remaining lookup methods are not modelled: they only call the gateway and map its rows.

=== FILE: ApiAudit.dfy ===
/**
  The API audit middleware: one audit header per request, created before the request is
  dispatched and updated once it has finished, with size-capped captures of the request
  and response bodies. Stream I/O, clocks and identifiers are inputs.
 */
module ApiAudit {
  import opened Wrappers
  import opened Text

  /** Bodies longer than 10 MiB are not captured. */
  const MaxBodySize: int := 10 * 1024 * 1024

  /** The request-items key under which the header id is published. */
  const AuditLogIdKey: string := "__AuditLogId__"

  /** The placeholder recorded instead of a body that is too large. */
  function TooLargeNote(length: nat): string
  {
    "[Body too large: " + NatToString(length) + " bytes]"
  }

  /** The note recorded when reading a body throws. */
  function ReadErrorNote(message: string): string
  {
    "[Error reading body: " + message + "]"
  }

  /** The result of reading a stream to its end: the text, or the exception's message. */
  datatype ReadOutcome = ReadText(text: string) | ReadFails(message: string)

  /** A buffered response body: its length in bytes and what reading it gives. */
  datatype Body = Body(length: nat, read: ReadOutcome)

  const EmptyBody := Body(0, ReadText(""))

  /** The text of a body read in full, or `None` when it is blank. */
  function Captured(read: ReadOutcome): (r: Option<string>)
    ensures read.ReadText? ==> (r.None? <==> IsNullOrWhiteSpace(Some(read.text)))
    ensures read.ReadText? && r.Some? ==> r.value == read.text
    ensures read.ReadFails? ==> r == Some(ReadErrorNote(read.message))
  {
    match read
    case ReadText(t) => if IsNullOrWhiteSpace(Some(t)) then None else Some(t)
    case ReadFails(m) => Some(ReadErrorNote(m))
  }

  /** `ReadRequestBodyAsync`: nothing for a missing or zero length and for OPTIONS; the
      placeholder above the limit; otherwise the body text unless it is blank. */
  function RequestBody(contentLength: Option<int>, httpMethod: string, read: ReadOutcome): (r: Option<string>)
    ensures contentLength.None? || contentLength == Some(0) || httpMethod == "OPTIONS" ==> r == None
    ensures contentLength.Some? && contentLength.value > MaxBodySize && httpMethod != "OPTIONS" ==>
      r == Some(TooLargeNote(contentLength.value))
    ensures contentLength.Some? && contentLength.value != 0 && contentLength.value <= MaxBodySize && httpMethod != "OPTIONS" ==>
      r == Captured(read)
  {
    if contentLength.None? || contentLength.value == 0 then None
    else if httpMethod == "OPTIONS" then None
    else if contentLength.value > MaxBodySize then Some(TooLargeNote(contentLength.value))
    else Captured(read)
  }

  /** `ReadResponseBodyAsync`: nothing for an empty stream, the placeholder above the
      limit, otherwise the text unless it is blank. */
  function ResponseBody(body: Body): (r: Option<string>)
    ensures body.length == 0 ==> r == None
    ensures body.length > MaxBodySize ==> r == Some(TooLargeNote(body.length))
    ensures 0 < body.length <= MaxBodySize ==> r == Captured(body.read)
  {
    if body.length == 0 then None
    else if body.length > MaxBodySize then Some(TooLargeNote(body.length))
    else Captured(body.read)
  }

  /** A body of exactly the limit is still captured; one byte more is replaced by the
      placeholder, which states the length. */
  lemma BodyLimitBoundary(t: string, httpMethod: string)
    requires httpMethod != "OPTIONS"
    requires !IsNullOrWhiteSpace(Some(t))
    ensures RequestBody(Some(MaxBodySize), httpMethod, ReadText(t)) == Some(t)
    ensures RequestBody(Some(MaxBodySize + 1), httpMethod, ReadText(t)) == Some(TooLargeNote(MaxBodySize + 1))
    ensures ResponseBody(Body(MaxBodySize, ReadText(t))) == Some(t)
    ensures ResponseBody(Body(MaxBodySize + 1, ReadText(t))) == Some(TooLargeNote(MaxBodySize + 1))
    ensures DecimalValue(NatToString(MaxBodySize + 1)) == 10485761
  {
    DecimalRoundTrip(MaxBodySize + 1);
  }

  /** The success rule of the normal path. */
  predicate IsSuccessStatus(status: int)
  {
    200 <= status < 400
  }

  /** The status recorded when an exception escaped: the response status at that moment
      (ASP.NET's default 200 when the pipeline set none), or 500 when that is not
      positive. */
  function FailureStatus(status: int): (r: int)
    ensures r > 0
    ensures status > 0 ==> r == status
    ensures status <= 0 ==> r == 500
  {
    if status > 0 then status else 500
  }

  // ----------------------------------------------------------------------------
  // The header and the run

  /** An exception: its `Message` and its `ToString()`. */
  datatype Exception = Exception(message: string, details: string)

  /** What the middleware reads from the request. */
  datatype Request = Request(
    httpMethod: string,
    path: Option<string>,
    queryString: Option<string>,
    remoteIp: Option<string>,
    userAgent: string,
    contentLength: Option<int>,
    body: ReadOutcome)

  /** The current user. */
  datatype User = User(userId: Option<string>, username: Option<string>)

  /** Clock and identifier inputs: the start time, the correlation id and the elapsed
      milliseconds when the stopwatch stops. */
  datatype Environment = Environment(timestamp: int, correlationId: int, elapsedMs: int)

  /** The audit header. */
  datatype AuditLog = AuditLog(
    id: int,
    timestamp: int,
    httpMethod: string,
    endpoint: string,
    requestPath: string,
    queryString: Option<string>,
    ipAddress: Option<string>,
    userAgent: string,
    userId: Option<string>,
    username: Option<string>,
    correlationId: int,
    requestBody: Option<string>,
    responseStatusCode: int,
    isSuccess: bool,
    responseTimeMs: int,
    responseBody: Option<string>,
    errorMessage: Option<string>,
    exceptionDetails: Option<string>)

  /** The header as prepared before the response is swapped for a buffer: the request's
      metadata, the user, the start time, a fresh correlation id and the request body. */
  function Draft(req: Request, user: User, env: Environment): (h: AuditLog)
    ensures h.id == 0 && !h.isSuccess && h.errorMessage.None? && h.exceptionDetails.None?
    ensures h.responseStatusCode == 0 && h.responseBody.None?
    ensures h.requestBody == RequestBody(req.contentLength, req.httpMethod, req.body)
    ensures h.timestamp == env.timestamp && h.correlationId == env.correlationId
    ensures h.httpMethod == req.httpMethod && h.queryString == req.queryString
    ensures h.endpoint == req.path.GetOr("") && h.requestPath == h.endpoint
    ensures h.ipAddress == req.remoteIp && h.userAgent == req.userAgent
    ensures h.userId == user.userId && h.username == user.username
  {
    var path := req.path.GetOr("");
    AuditLog(0, env.timestamp, req.httpMethod, path, path, req.queryString, req.remoteIp, req.userAgent,
      user.userId, user.username, env.correlationId, RequestBody(req.contentLength, req.httpMethod, req.body),
      0, false, 0, None, None, None)
  }

  /** How `LogAsync` behaves: it stores the header and assigns an id, or throws. */
  datatype LogBehaviour = Assigns(id: int) | LogThrows(error: Exception)

  /** The audit service's behaviour for one request: `LogAsync`, then the normal-path
      `UpdateAsync` (`Some` when it throws), then whether the exception-path
      `UpdateAsync` throws. */
  datatype ServiceScript = ServiceScript(log: LogBehaviour, successUpdate: Option<Exception>, failureUpdateThrows: bool)

  /** How the client's response stream behaves when the buffer is copied into it
      (`CopyToAsync`, then `FlushAsync`): at the copy on the normal path and at the copy
      in the exception handler, `Some` when that copy throws. */
  datatype CopyScript = CopyScript(normalCopy: Option<Exception>, handlerCopy: Option<Exception>)

  /** A copy throws only when there is something to copy: an empty buffer never touches
      the client stream. */
  predicate CopyThrows(body: Body, fault: Option<Exception>)
  {
    body.length > 0 && fault.Some?
  }

  /** What the rest of the pipeline does: finishes with a status and a body, or throws
      after setting a status and writing part of a body. */
  datatype Downstream =
    | Returns(status: int, body: Body)
    | Throws(error: Exception, status: int, body: Body)

  /** A call made to the audit service and whether it went through. */
  datatype AuditCall = Create(header: AuditLog, succeeded: bool) | Update(header: AuditLog, succeeded: bool)

  /** How the middleware ends: normally, or by throwing. */
  datatype Outcome = Completed | Rethrown(error: Exception)

  /** The effects of one request: audit calls in order, the id published in the request
      items, how it ended, whether the pipeline ran, and what reached the client's
      response stream. */
  datatype Run = Run(calls: seq<AuditCall>, publishedId: Option<int>, outcome: Outcome, dispatched: bool, delivered: seq<Body>)

  /** The header as the exception handler fills it in: failure, the status, the exception,
      the elapsed time and whatever response was buffered. */
  function Failed(h: AuditLog, status: int, e: Exception, env: Environment, body: Body): (r: AuditLog)
    ensures !r.isSuccess && r.errorMessage == Some(e.message) && r.responseStatusCode == FailureStatus(status)
    ensures r.exceptionDetails == Some(e.details) && r.responseBody == ResponseBody(body)
    ensures r.responseTimeMs == env.elapsedMs
    ensures r.(responseStatusCode := h.responseStatusCode, isSuccess := h.isSuccess, errorMessage := h.errorMessage,
               exceptionDetails := h.exceptionDetails, responseTimeMs := h.responseTimeMs, responseBody := h.responseBody) == h
  {
    h.(responseStatusCode := FailureStatus(status), isSuccess := false, errorMessage := Some(e.message),
       exceptionDetails := Some(e.details), responseTimeMs := env.elapsedMs, responseBody := ResponseBody(body))
  }

  /** The header as the normal path fills it in once the pipeline has finished. */
  function Finished(h: AuditLog, status: int, env: Environment, body: Body): (r: AuditLog)
    ensures (r.isSuccess <==> 200 <= status < 400) && r.responseStatusCode == status && r.responseBody == ResponseBody(body)
    ensures r.responseTimeMs == env.elapsedMs
    ensures r.(responseStatusCode := h.responseStatusCode, isSuccess := h.isSuccess,
               responseTimeMs := h.responseTimeMs, responseBody := h.responseBody) == h
  {
    h.(responseStatusCode := status, isSuccess := IsSuccessStatus(status),
       responseTimeMs := env.elapsedMs, responseBody := ResponseBody(body))
  }

  /** The calls, the ending and the delivered response from some point of the request
      on. */
  datatype Tail = Tail(calls: seq<AuditCall>, outcome: Outcome, delivered: seq<Body>)

  /** The exception handler for `e`: a single update of the failed header, whose failure
      is swallowed, then the copy of the buffer to the client. The handled exception is
      re-thrown unless that copy throws, in which case the copy's exception escapes in its
      place. */
  function Handler(h: AuditLog, status: int, e: Exception, env: Environment, body: Body,
                   updateThrows: bool, copyFault: Option<Exception>): (t: Tail)
    ensures t.calls == [Update(Failed(h, status, e, env, body), !updateThrows)]
    ensures t.outcome.Rethrown?
    ensures !CopyThrows(body, copyFault) ==> t.outcome.error == e
    ensures CopyThrows(body, copyFault) ==> t.outcome.error == copyFault.value
    ensures t.delivered == [] || t.delivered == [body]
    ensures t.delivered == [body] <==> body.length > 0 && copyFault.None?
  {
    var update := Update(Failed(h, status, e, env, body), !updateThrows);
    if body.length == 0 then Tail([update], Rethrown(e), [])
    else match copyFault
      case Some(c) => Tail([update], Rethrown(c), [])
      case None => Tail([update], Rethrown(e), [body])
  }

  /** What follows a successful `LogAsync`: the pipeline runs; on a normal finish the
      header is updated with the response and the buffer is copied to the client, and an
      exception from the pipeline, from that update or from that copy goes to the
      exception handler. */
  function Dispatched(logged: AuditLog, env: Environment, script: ServiceScript, copies: CopyScript,
                      next: Downstream): (t: Tail)
    ensures 1 <= |t.calls| <= 2
    ensures forall i :: 0 <= i < |t.calls| ==> t.calls[i].Update? && t.calls[i].header.id == logged.id
    ensures t.outcome == Completed <==>
      next.Returns? && script.successUpdate.None? && !CopyThrows(next.body, copies.normalCopy)
    ensures t.outcome == Completed ==> t.calls == [Update(Finished(logged, next.status, env, next.body), true)]
    ensures t.outcome.Rethrown? ==> !t.calls[|t.calls| - 1].header.isSuccess
    ensures t.outcome.Rethrown? && !CopyThrows(next.body, copies.handlerCopy) ==>
      t.calls[|t.calls| - 1].header.errorMessage == Some(t.outcome.error.message)
    ensures t.outcome.Rethrown? && CopyThrows(next.body, copies.handlerCopy) ==>
      t.outcome == Rethrown(copies.handlerCopy.value)
    ensures t.delivered == [] || t.delivered == [next.body]
    ensures t.delivered == [next.body] <==> next.body.length > 0 && (t.outcome == Completed || copies.handlerCopy.None?)
  {
    match next
    case Throws(e, status, body) =>
      Handler(logged, status, e, env, body, script.failureUpdateThrows, copies.handlerCopy)
    case Returns(status, body) =>
      var done := Finished(logged, status, env, body);
      match script.successUpdate
      case Some(e) =>
        var h := Handler(done, status, e, env, body, script.failureUpdateThrows, copies.handlerCopy);
        Tail([Update(done, false)] + h.calls, h.outcome, h.delivered)
      case None =>
        if CopyThrows(body, copies.normalCopy) then
          var h := Handler(done, status, copies.normalCopy.value, env, body, script.failureUpdateThrows, copies.handlerCopy);
          Tail([Update(done, true)] + h.calls, h.outcome, h.delivered)
        else
          Tail([Update(done, true)], Completed, if body.length > 0 then [body] else [])
  }

  /** The effects `InvokeAsync` has, given its inputs and the response status before the
      pipeline runs. */
  function Expected(req: Request, user: User, env: Environment, initialStatus: int,
                    script: ServiceScript, copies: CopyScript, next: Downstream): (run: Run)
    ensures |run.calls| >= 2 && run.calls[0] == Create(Draft(req, user, env), script.log.Assigns?)
    ensures run.dispatched <==> script.log.Assigns?
    ensures run.outcome == Completed <==>
      script.log.Assigns? && next.Returns? && script.successUpdate.None? && !CopyThrows(next.body, copies.normalCopy)
    ensures !run.dispatched ==> run.delivered == [] && run.outcome == Rethrown(script.log.error)
    ensures run.delivered == [] || run.delivered == [next.body]
  {
    var draft := Draft(req, user, env);
    match script.log
    case LogThrows(e) =>
      // nothing was buffered, so the handler's copy does nothing
      var h := Handler(draft, initialStatus, e, env, EmptyBody, script.failureUpdateThrows, copies.handlerCopy);
      Run([Create(draft, false)] + h.calls, None, h.outcome, false, h.delivered)
    case Assigns(id) =>
      var tail := Dispatched(draft.(id := id), env, script, copies, next);
      Run([Create(draft, true)] + tail.calls, if id > 0 then Some(id) else None, tail.outcome, true, tail.delivered)
  }

  /** The header is created first, before the pipeline runs, and exactly once; every
      later call updates it, and there is at least one such update. */
  lemma HeaderCreatedFirst(req: Request, user: User, env: Environment, initialStatus: int,
                           script: ServiceScript, copies: CopyScript, next: Downstream)
    ensures var run := Expected(req, user, env, initialStatus, script, copies, next);
      && 2 <= |run.calls| <= 3
      && run.calls[0] == Create(Draft(req, user, env), script.log.Assigns?)
      && (forall i :: 1 <= i < |run.calls| ==> run.calls[i].Update?)
      && (run.dispatched <==> script.log.Assigns?)
  {
  }

  /** The id is published in the request items exactly when `LogAsync` assigned a
      positive id, and every update carries that id. */
  lemma PublishedId(req: Request, user: User, env: Environment, initialStatus: int,
                    script: ServiceScript, copies: CopyScript, next: Downstream)
    ensures var run := Expected(req, user, env, initialStatus, script, copies, next);
      && (run.publishedId.Some? <==> script.log.Assigns? && script.log.id > 0)
      && (run.publishedId.Some? ==> run.publishedId.value == script.log.id)
      && (forall i :: 1 <= i < |run.calls| ==> run.calls[i].header.id == (if script.log.Assigns? then script.log.id else 0))
  {
  }

  /** Normal completion: when the pipeline returns, the update succeeds and the copy to
      the client does not throw, the middleware completes, the single update records the
      response status with success exactly for 200 to 399, and a non-empty response
      reaches the client once. */
  lemma NormalCompletion(req: Request, user: User, env: Environment, initialStatus: int,
                         id: int, failureUpdateThrows: bool, handlerCopy: Option<Exception>, status: int, body: Body)
    ensures var run := Expected(req, user, env, initialStatus, ServiceScript(Assigns(id), None, failureUpdateThrows),
                                CopyScript(None, handlerCopy), Returns(status, body));
      && run.outcome == Completed
      && |run.calls| == 2
      && run.calls[1].header.responseStatusCode == status
      && (run.calls[1].header.isSuccess <==> 200 <= status < 400)
      && run.calls[1].header.responseBody == ResponseBody(body)
      && run.calls[1].header.errorMessage.None?
      && run.delivered == (if body.length > 0 then [body] else [])
  {
  }

  /** A failing copy to the client on the normal path: the header has already been updated
      as finished, so a second update records the copy's exception as a failure; the
      handler copies again, and the copy's exception is re-thrown unless that second copy
      throws too, whose exception then escapes instead. The client gets the body only
      from a second copy that goes through. */
  lemma CopyFailureAfterUpdate(req: Request, user: User, env: Environment, initialStatus: int,
                               id: int, failureUpdateThrows: bool, copyError: Exception,
                               handlerCopy: Option<Exception>, status: int, body: Body)
    requires body.length > 0
    ensures var run := Expected(req, user, env, initialStatus, ServiceScript(Assigns(id), None, failureUpdateThrows),
                                CopyScript(Some(copyError), handlerCopy), Returns(status, body));
      && run.outcome == Rethrown(if handlerCopy.Some? then handlerCopy.value else copyError)
      && |run.calls| == 3
      && run.calls[1] == Update(Finished(Draft(req, user, env).(id := id), status, env, body), true)
      && run.calls[2].succeeded == !failureUpdateThrows
      && !run.calls[2].header.isSuccess
      && run.calls[2].header.errorMessage == Some(copyError.message)
      && run.calls[2].header.responseStatusCode == FailureStatus(status)
      && run.delivered == (if handlerCopy.None? then [body] else [])
  {
  }

  /** A pipeline exception: the header is updated as failed with the exception's message
      and the response status (ASP.NET's default 200 when unset, 500 when that is not
      positive). The original exception is re-thrown whether or not that update fails,
      unless the handler's copy to the client throws, whose exception escapes instead. */
  lemma PipelineException(req: Request, user: User, env: Environment, initialStatus: int,
                          id: int, successUpdate: Option<Exception>, failureUpdateThrows: bool,
                          copies: CopyScript, e: Exception, status: int, body: Body)
    ensures var run := Expected(req, user, env, initialStatus, ServiceScript(Assigns(id), successUpdate, failureUpdateThrows),
                                copies, Throws(e, status, body));
      && run.outcome == Rethrown(if CopyThrows(body, copies.handlerCopy) then copies.handlerCopy.value else e)
      && |run.calls| == 2
      && !run.calls[1].header.isSuccess
      && run.calls[1].header.errorMessage == Some(e.message)
      && run.calls[1].header.responseStatusCode == (if status > 0 then status else 500)
      && run.calls[1].succeeded == !failureUpdateThrows
  {
  }

  /** Audit failures outside the exception handler are not swallowed: a throwing
      `LogAsync` stops the request before the pipeline runs, and a throwing normal-path
      `UpdateAsync` turns a finished request into a re-thrown exception (replaced by the
      handler copy's exception when that copy throws). */
  lemma AuditFailuresPropagate(req: Request, user: User, env: Environment, initialStatus: int,
                               script: ServiceScript, copies: CopyScript, next: Downstream)
    requires script.log.LogThrows? || (next.Returns? && script.successUpdate.Some?)
    ensures var run := Expected(req, user, env, initialStatus, script, copies, next);
      && run.outcome == Rethrown(
           if script.log.LogThrows? then script.log.error
           else if CopyThrows(next.body, copies.handlerCopy) then copies.handlerCopy.value
           else script.successUpdate.value)
      && (script.log.LogThrows? ==> !run.dispatched)
      && !run.calls[|run.calls| - 1].header.isSuccess
  {
  }

  // ----------------------------------------------------------------------------
  // The middleware over the request context

  /** A response stream; `delivered` is what has been written into it. */
  class Stream {
    var delivered: seq<Body>

    constructor ()
      ensures delivered == []
    {
      delivered := [];
    }
  }

  /** The parts of `HttpContext` the middleware touches. */
  class HttpContext {
    var items: map<string, int>
    var statusCode: int
    var responseBody: Stream

    constructor (body: Stream)
      ensures items == map[] && statusCode == 200 && responseBody == body
    {
      items := map[];
      statusCode := 200;
      responseBody := body;
    }
  }

  /** The calls the audit service has received. */
  class AuditLogService {
    var calls: seq<AuditCall>

    constructor ()
      ensures calls == []
    {
      calls := [];
    }
  }

  /** `CopyResponseBodyAsync`: a non-empty buffered body goes to the original stream,
      unless the stream throws (`fault`), in which case that exception is returned. */
  method CopyResponseBody(body: Body, destination: Stream, fault: Option<Exception>) returns (error: Option<Exception>)
    modifies destination
    ensures error.Some? <==> CopyThrows(body, fault)
    ensures error.Some? ==> error == fault
    ensures destination.delivered == old(destination.delivered) + (if body.length > 0 && error.None? then [body] else [])
  {
    error := None;
    if body.length > 0 {
      if fault.Some? {
        error := fault;
      } else {
        destination.delivered := destination.delivered + [body];
      }
    }
  }

  /** The exception handler: records the failure on the header, attempts the update
      (a failing update is swallowed), copies the buffered body to the original stream
      and re-throws the handled exception, or the copy's when the copy throws. */
  method RecordFailure(svc: AuditLogService, originalBodyStream: Stream, auditLog: AuditLog, status: int,
                       ex: Exception, env: Environment, buffered: Body, updateThrows: bool,
                       copyFault: Option<Exception>) returns (outcome: Outcome)
    modifies svc, originalBodyStream
    ensures var t := Handler(auditLog, status, ex, env, buffered, updateThrows, copyFault);
      && svc.calls == old(svc.calls) + t.calls
      && originalBodyStream.delivered == old(originalBodyStream.delivered) + t.delivered
      && outcome == t.outcome
  {
    var failed := Failed(auditLog, status, ex, env, buffered);
    svc.calls := svc.calls + [Update(failed, !updateThrows)];
    var copyError := CopyResponseBody(buffered, originalBodyStream, copyFault);
    if copyError.Some? {
      outcome := Rethrown(copyError.value);
    } else {
      outcome := Rethrown(ex);
    }
  }

  /** Everything after the header is created, with the exception handler: runs the
      pipeline against the buffer, records the response and updates the header, copying
      the buffered body out. */
  method RunPipeline(ctx: HttpContext, svc: AuditLogService, originalBodyStream: Stream, auditLog: AuditLog,
                     env: Environment, script: ServiceScript, copies: CopyScript, next: Downstream)
    returns (outcome: Outcome)
    requires ctx.responseBody != originalBodyStream
    modifies ctx, ctx.responseBody, svc, originalBodyStream
    ensures var tail := Dispatched(auditLog, env, script, copies, next);
      && outcome == tail.outcome
      && svc.calls == old(svc.calls) + tail.calls
      && ctx.items == old(ctx.items) && ctx.statusCode == next.status && ctx.responseBody == old(ctx.responseBody)
      && originalBodyStream.delivered == old(originalBodyStream.delivered) + tail.delivered
  {
    // the pipeline writes into the buffer and sets the status
    ctx.statusCode := next.status;
    var buffered := next.body;
    ctx.responseBody.delivered := if buffered.length > 0 then [buffered] else [];
    if next.Throws? {
      outcome := RecordFailure(svc, originalBodyStream, auditLog, ctx.statusCode, next.error, env,
                               buffered, script.failureUpdateThrows, copies.handlerCopy);
    } else {
      var finished := Finished(auditLog, ctx.statusCode, env, buffered);
      svc.calls := svc.calls + [Update(finished, script.successUpdate.None?)];
      if script.successUpdate.Some? {
        outcome := RecordFailure(svc, originalBodyStream, finished, ctx.statusCode, script.successUpdate.value, env,
                                 buffered, script.failureUpdateThrows, copies.handlerCopy);
      } else {
        var copyError := CopyResponseBody(buffered, originalBodyStream, copies.normalCopy);
        if copyError.Some? {
          outcome := RecordFailure(svc, originalBodyStream, finished, ctx.statusCode, copyError.value, env,
                                   buffered, script.failureUpdateThrows, copies.handlerCopy);
        } else {
          outcome := Completed;
        }
      }
    }
  }

  /**
    `InvokeAsync`: prepares the header, swaps in a buffer for the response, creates the
    header, publishes its id, runs the pipeline, records the outcome and updates the
    header; on any exception records the failure, swallows a failing update and
    re-throws; in every case puts the original response stream back.
   */
  method InvokeAsync(ctx: HttpContext, svc: AuditLogService, req: Request, user: User, env: Environment,
                     script: ServiceScript, copies: CopyScript, next: Downstream) returns (outcome: Outcome)
    modifies ctx, ctx.responseBody, svc
    ensures var run := Expected(req, user, env, old(ctx.statusCode), script, copies, next);
      && outcome == run.outcome
      && svc.calls == old(svc.calls) + run.calls
      && ctx.items == (if run.publishedId.Some? then old(ctx.items)[AuditLogIdKey := run.publishedId.value] else old(ctx.items))
      && ctx.statusCode == (if run.dispatched then next.status else old(ctx.statusCode))
      && ctx.responseBody == old(ctx.responseBody)
      && ctx.responseBody.delivered == old(ctx.responseBody.delivered) + run.delivered
  {
    var originalBodyStream := ctx.responseBody;
    var auditLog := Draft(req, user, env);
    var responseBodyStream := new Stream();
    ctx.responseBody := responseBodyStream;

    svc.calls := svc.calls + [Create(auditLog, script.log.Assigns?)];
    if script.log.LogThrows? {
      // nothing was buffered and the pipeline never ran
      outcome := RecordFailure(svc, originalBodyStream, auditLog, ctx.statusCode, script.log.error, env,
                               EmptyBody, script.failureUpdateThrows, copies.handlerCopy);
    } else {
      auditLog := auditLog.(id := script.log.id);
      if auditLog.id > 0 {
        ctx.items := ctx.items[AuditLogIdKey := auditLog.id];
      }
      outcome := RunPipeline(ctx, svc, originalBodyStream, auditLog, env, script, copies, next);
    }

    // finally
    ctx.responseBody := originalBodyStream;
  }
}

=== FILE: Base64.dfy ===
/**
  The base64 codec behind the entity tags: the standard alphabet with `=` padding,
  section 4 of RFC 4648, as `Convert.ToBase64String` writes it and
  `Convert.FromBase64String` reads it.
 */
module Base64 {
  import opened Wrappers

  type Byte = b: int | 0 <= b < 256

  /** A six-bit value, one base64 digit. */
  type Sextet = v: int | 0 <= v < 64

  const Pad: char := '='

  /** The digit for `v` in the alphabet of Table 1 of RFC 4648; every digit decodes back to `v`. */
  function EncodeSextet(v: Sextet): (c: char)
    ensures c != Pad && DecodeChar(c) == Some(v)
  {
    if v < 26 then ('A' as int + v) as char
    else if v < 52 then ('a' as int + (v - 26)) as char
    else if v < 62 then ('0' as int + (v - 52)) as char
    else if v == 62 then '+'
    else '/'
  }

  /** The value of an alphabet character; `None` for anything outside the alphabet
      (the padding character included). */
  function DecodeChar(c: char): (r: Option<Sextet>)
    ensures r.Some? ==> c != Pad
  {
    if 'A' <= c <= 'Z' then Some(c as int - 'A' as int)
    else if 'a' <= c <= 'z' then Some(c as int - 'a' as int + 26)
    else if '0' <= c <= '9' then Some(c as int - '0' as int + 52)
    else if c == '+' then Some(62)
    else if c == '/' then Some(63)
    else None
  }

  /** Only the 64 digits decode, and each decodes to the sextet it encodes. */
  lemma DecodeCharInverse(c: char)
    ensures DecodeChar(c).Some? ==> EncodeSextet(DecodeChar(c).value) == c
  {
  }

  /** A character that may appear in encoder output. */
  predicate IsEncodedChar(c: char)
  {
    c == Pad || DecodeChar(c).Some?
  }

  /** Three bytes (missing ones read as zero) split into four sextets, most significant first. */
  function Sextets(b0: Byte, b1: Byte, b2: Byte): seq<Sextet>
  {
    [b0 / 4, (b0 % 4) * 16 + b1 / 16, (b1 % 16) * 4 + b2 / 64, b2 % 64]
  }

  /** The four characters of one quantum; `n` of the three bytes are real (1, 2 or 3),
      and 3 - n padding characters close it. */
  function EncodeQuantum(b0: Byte, b1: Byte, b2: Byte, n: nat): (q: string)
    requires 1 <= n <= 3
    ensures |q| == 4
  {
    var s := Sextets(b0, b1, b2);
    [EncodeSextet(s[0]), EncodeSextet(s[1])]
      + (if n >= 2 then [EncodeSextet(s[2])] else [Pad])
      + (if n == 3 then [EncodeSextet(s[3])] else [Pad])
  }

  /** `Convert.ToBase64String`. */
  function Encode(b: seq<Byte>): (s: string)
    ensures |b| > 0 ==> |s| >= 4
  {
    if |b| == 0 then ""
    else if |b| == 1 then EncodeQuantum(b[0], 0, 0, 1)
    else if |b| == 2 then EncodeQuantum(b[0], b[1], 0, 2)
    else EncodeQuantum(b[0], b[1], b[2], 3) + Encode(b[3..])
  }

  /** Every started group of three bytes becomes four characters. */
  lemma {:induction false} EncodeLength(b: seq<Byte>)
    ensures |Encode(b)| == 4 * ((|b| + 2) / 3)
  {
    if |b| >= 3 {
      EncodeLength(b[3..]);
      assert (|b| + 2) / 3 == (|b[3..]| + 2) / 3 + 1;
    }
  }

  /** A quantum uses only alphabet and padding characters. */
  lemma QuantumAlphabet(b0: Byte, b1: Byte, b2: Byte, n: nat)
    requires 1 <= n <= 3
    ensures forall k :: 0 <= k < 4 ==> IsEncodedChar(EncodeQuantum(b0, b1, b2, n)[k])
  {
    var s := Sextets(b0, b1, b2);
    var q := EncodeQuantum(b0, b1, b2, n);
    assert DecodeChar(q[0]) == Some(s[0]) && DecodeChar(q[1]) == Some(s[1]);
  }

  /** The encoding uses only alphabet and padding characters. */
  lemma {:induction false} EncodeAlphabet(b: seq<Byte>)
    ensures forall k :: 0 <= k < |Encode(b)| ==> IsEncodedChar(Encode(b)[k])
  {
    if |b| == 1 {
      QuantumAlphabet(b[0], 0, 0, 1);
    } else if |b| == 2 {
      QuantumAlphabet(b[0], b[1], 0, 2);
    } else if |b| >= 3 {
      var q := EncodeQuantum(b[0], b[1], b[2], 3);
      var t := Encode(b[3..]);
      QuantumAlphabet(b[0], b[1], b[2], 3);
      EncodeAlphabet(b[3..]);
      assert Encode(b) == q + t;
      forall k | 0 <= k < |q + t|
        ensures IsEncodedChar((q + t)[k])
      {
        if k >= 4 {
          assert (q + t)[k] == t[k - 4];
        }
      }
    }
  }

  /** Decodes one quantum of four characters. Padding is accepted only in the last
      quantum (`last`), as `xx==` or `xxx=`; the low bits of the last digit before
      the padding are not part of any byte and are discarded. */
  function DecodeQuantum(q: string, last: bool): (r: Option<seq<Byte>>)
    requires |q| == 4
    ensures r.Some? ==> 1 <= |r.value| <= 3
    ensures r.Some? && !last ==> |r.value| == 3
  {
    var c0, c1 := DecodeChar(q[0]), DecodeChar(q[1]);
    if c0.None? || c1.None? then None
    else if q[2] == Pad && q[3] == Pad then
      if last then Some([c0.value * 4 + c1.value / 16]) else None
    else
      var c2 := DecodeChar(q[2]);
      if c2.None? then None
      else if q[3] == Pad then
        if last then Some([c0.value * 4 + c1.value / 16, (c1.value % 16) * 16 + c2.value / 4])
        else None
      else
        var c3 := DecodeChar(q[3]);
        if c3.None? then None
        else Some([c0.value * 4 + c1.value / 16,
                   (c1.value % 16) * 16 + c2.value / 4,
                   (c2.value % 4) * 64 + c3.value])
  }

  /** `Convert.FromBase64String` on input without white space: `None` where .NET throws
      `FormatException` (a length that is not a multiple of four, a character outside the
      alphabet, padding anywhere but at the end). */
  function Decode(s: string): (r: Option<seq<Byte>>)
    ensures r.Some? ==> |s| % 4 == 0
    ensures r.Some? ==> |r.value| <= |s|
  {
    if |s| == 0 then Some([])
    else if |s| < 4 then None
    else
      match DecodeQuantum(s[..4], |s| == 4)
      case None => None
      case Some(head) =>
        match Decode(s[4..])
        case None => None
        case Some(tail) => Some(head + tail)
  }

  /** One quantum decodes to the bytes it was made from. */
  lemma QuantumRoundTrip(b0: Byte, b1: Byte, b2: Byte, n: nat, last: bool)
    requires 1 <= n <= 3
    requires n < 3 ==> last
    ensures DecodeQuantum(EncodeQuantum(b0, b1, b2, n), last) == Some([b0, b1, b2][..n])
  {
    var s := Sextets(b0, b1, b2);
    var q := EncodeQuantum(b0, b1, b2, n);
    assert DecodeChar(q[0]) == Some(s[0]) && DecodeChar(q[1]) == Some(s[1]);
    assert n >= 2 ==> DecodeChar(q[2]) == Some(s[2]);
    assert n == 3 ==> DecodeChar(q[3]) == Some(s[3]);
    assert n < 2 ==> q[2] == Pad;
    assert n < 3 ==> q[3] == Pad;
    assert (s[0] as int) * 4 + (s[1] as int) / 16 == b0;
    assert n >= 2 ==> ((s[1] as int) % 16) * 16 + (s[2] as int) / 4 == b1;
    assert n == 3 ==> ((s[2] as int) % 4) * 64 + s[3] as int == b2;
    if n == 1 {
      assert DecodeQuantum(q, last) == Some([b0]);
      assert [b0, b1, b2][..1] == [b0];
    } else if n == 2 {
      assert DecodeQuantum(q, last) == Some([b0, b1]);
      assert [b0, b1, b2][..2] == [b0, b1];
    } else {
      assert DecodeQuantum(q, last) == Some([b0, b1, b2]);
      assert [b0, b1, b2][..3] == [b0, b1, b2];
    }
  }

  /** The round trip for one byte: a quantum with two pad characters. */
  lemma DecodeEncodeOne(b0: Byte)
    ensures Decode(Encode([b0])) == Some([b0])
  {
    var q := EncodeQuantum(b0, 0, 0, 1);
    assert Encode([b0]) == q;
    QuantumRoundTrip(b0, 0, 0, 1, true);
    assert [b0, 0, 0][..1] == [b0];
    assert q[..4] == q && q[4..] == "";
    assert DecodeQuantum(q[..4], true) == Some([b0]);
    assert Decode(q) == Some([b0] + []);
    assert [b0] + [] == [b0];
  }

  /** The round trip for two bytes: a quantum with one pad character. */
  lemma DecodeEncodeTwo(b0: Byte, b1: Byte)
    ensures Decode(Encode([b0, b1])) == Some([b0, b1])
  {
    var q := EncodeQuantum(b0, b1, 0, 2);
    assert Encode([b0, b1]) == q;
    QuantumRoundTrip(b0, b1, 0, 2, true);
    assert [b0, b1, 0][..2] == [b0, b1];
    assert q[..4] == q && q[4..] == "";
    assert DecodeQuantum(q[..4], true) == Some([b0, b1]);
    assert Decode(q) == Some([b0, b1] + []);
    assert [b0, b1] + [] == [b0, b1];
  }

  /** Three or more bytes encode to a full quantum followed by the encoding of the rest. */
  lemma EncodeSplit(b: seq<Byte>)
    requires |b| >= 3
    ensures var s := Encode(b);
      && |s| >= 4
      && s[..4] == EncodeQuantum(b[0], b[1], b[2], 3)
      && s[4..] == Encode(b[3..])
  {
    var q := EncodeQuantum(b[0], b[1], b[2], 3);
    assert Encode(b) == q + Encode(b[3..]);
  }

  /** The first quantum of the encoding of three or more bytes decodes to the first three. */
  lemma HeadQuantum(b: seq<Byte>)
    requires |b| >= 3
    ensures |Encode(b)| >= 4 && DecodeQuantum(Encode(b)[..4], |Encode(b)| == 4) == Some(b[..3])
  {
    var b0, b1, b2 := b[0], b[1], b[2];
    assert [b0, b1, b2][..3] == b[..3];
    EncodeSplit(b);
    QuantumRoundTrip(b0, b1, b2, 3, |Encode(b)| == 4);
  }

  /** Decoding a quantum followed by the rest appends the rest's bytes to the quantum's. */
  lemma DecodeCons(s: string, head: seq<Byte>, tail: seq<Byte>)
    requires |s| >= 4
    requires DecodeQuantum(s[..4], |s| == 4) == Some(head)
    requires Decode(s[4..]) == Some(tail)
    ensures Decode(s) == Some(head + tail)
  {
  }

  /** The round trip for a full quantum followed by the rest of the input. */
  lemma DecodeEncodeStep(b: seq<Byte>)
    requires |b| >= 3
    requires Decode(Encode(b[3..])) == Some(b[3..])
    ensures Decode(Encode(b)) == Some(b)
  {
    assert b[..3] + b[3..] == b;
    HeadQuantum(b);
    EncodeSplit(b);
    DecodeCons(Encode(b), b[..3], b[3..]);
  }

  /** Round trip: decoding what the encoder wrote gives back the bytes. */
  lemma {:induction false} DecodeEncode(b: seq<Byte>)
    ensures Decode(Encode(b)) == Some(b)
  {
    if |b| == 1 {
      DecodeEncodeOne(b[0]);
      assert [b[0]] == b;
    } else if |b| == 2 {
      DecodeEncodeTwo(b[0], b[1]);
      assert [b[0], b[1]] == b;
    } else if |b| >= 3 {
      DecodeEncode(b[3..]);
      DecodeEncodeStep(b);
    }
  }

  /** Different byte strings have different encodings. */
  lemma EncodeInjective(a: seq<Byte>, b: seq<Byte>)
    ensures Encode(a) == Encode(b) <==> a == b
  {
    if Encode(a) == Encode(b) {
      DecodeEncode(a);
      DecodeEncode(b);
    }
  }

  /** Input whose length is not a multiple of four never decodes. */
  lemma {:induction false} DecodeRejectsLength(s: string)
    requires |s| % 4 != 0
    ensures Decode(s) == None
  {
    if |s| >= 4 {
      DecodeRejectsLength(s[4..]);
    }
  }

  /** A decoded value's encoding is exactly as long as the decoded input. */
  lemma {:induction false} DecodeLength(s: string)
    requires Decode(s).Some?
    ensures |Encode(Decode(s).value)| == |s|
  {
    if |s| > 0 {
      var head := DecodeQuantum(s[..4], |s| == 4).value;
      var tail := Decode(s[4..]).value;
      DecodeLength(s[4..]);
      if |s| > 4 {
        assert |head| == 3;
      } else {
        assert tail == [];
      }
    }
  }
  // ----------------------------------------------------------------------------
  // What the decoder accepts, stated without the decoder

  /** A digit of the alphabet of Table 1 of RFC 4648. */
  predicate IsAlphabetChar(c: char)
  {
    ('A' <= c <= 'Z') || ('a' <= c <= 'z') || ('0' <= c <= '9') || c == '+' || c == '/'
  }

  /** Canonical base64 text: whole quanta of alphabet digits and `=`, the pad only in the
      last two positions, and a pad in the next-to-last position followed by another. */
  predicate WellFormed(s: string)
  {
    && |s| % 4 == 0
    && (forall k :: 0 <= k < |s| ==> IsAlphabetChar(s[k]) || s[k] == Pad)
    && (forall k :: 0 <= k < |s| - 2 ==> s[k] != Pad)
    && (|s| >= 4 && s[|s| - 2] == Pad ==> s[|s| - 1] == Pad)
  }

  /** One quantum of canonical text; only the last may carry padding. */
  predicate QuantumWellFormed(q: string, last: bool)
    requires |q| == 4
  {
    && (forall k :: 0 <= k < 4 ==> IsAlphabetChar(q[k]) || q[k] == Pad)
    && q[0] != Pad && q[1] != Pad
    && (q[2] == Pad ==> q[3] == Pad)
    && (!last ==> q[2] != Pad && q[3] != Pad)
  }

  lemma QuantumDecodes(q: string, last: bool)
    requires |q| == 4
    ensures DecodeQuantum(q, last).Some? <==> QuantumWellFormed(q, last)
  {
    assert forall c :: DecodeChar(c).Some? <==> IsAlphabetChar(c);
  }

  /** Canonical text is a canonical first quantum followed by canonical text. */
  lemma WellFormedSplit(s: string)
    requires |s| >= 4
    ensures WellFormed(s) <==> QuantumWellFormed(s[..4], |s| == 4) && WellFormed(s[4..])
  {
    var q, t := s[..4], s[4..];
    assert |s| % 4 == |t| % 4;
    assert forall k :: 0 <= k < 4 ==> q[k] == s[k];
    assert forall k :: 0 <= k < |t| ==> t[k] == s[k + 4];
    if WellFormed(s) {
      assert QuantumWellFormed(q, |s| == 4);
      assert WellFormed(t);
    }
    if QuantumWellFormed(q, |s| == 4) && WellFormed(t) {
      forall k | 0 <= k < |s|
        ensures IsAlphabetChar(s[k]) || s[k] == Pad
      {
        if k >= 4 {
          assert s[k] == t[k - 4];
        }
      }
      forall k | 0 <= k < |s| - 2
        ensures s[k] != Pad
      {
        if k >= 4 {
          assert s[k] == t[k - 4];
        }
      }
    }
  }

  /** `FromBase64String` accepts exactly canonical text: a character outside the alphabet,
      a pad before the last two positions, a lone pad before a digit, or a length that is
      not a multiple of four is rejected. */
  lemma {:induction false} DecodeAccepts(s: string)
    ensures Decode(s).Some? <==> WellFormed(s)
  {
    if |s| >= 4 {
      QuantumDecodes(s[..4], |s| == 4);
      WellFormedSplit(s);
      DecodeAccepts(s[4..]);
    }
  }

  /** A tag holding a character outside the alphabet is rejected. */
  lemma ForeignCharRejected()
    ensures Decode("ab$d") == None
  {
    DecodeAccepts("ab$d");
    assert !IsAlphabetChar("ab$d"[2]);
  }
}

=== FILE: ChangeCapture.dfy ===
/**
  Change capture around `SaveChangesAsync` of the database context.

  When a request has an audit header id and an audit service is present, the context
  diffs the change tracker's Added, Modified and Deleted entries before committing,
  and after the commit hands each entity's field changes to the audit service, one
  call per entity, swallowing any failure. The audit id is cleared after every save
  that completes.
 */
module ChangeCapture {
  import opened Wrappers
  import opened Text

  /** The change tracker's entry states. */
  datatype EntityState = Detached | Unchanged | Deleted | Modified | Added

  /** A property value as the audit service receives it: `Null`, or its text. */
  datatype Value = Null | Val(shown: string)

  /** One property of a tracked entity. */
  datatype PropertyEntry = PropertyEntry(
    name: string,
    original: Value,
    current: Value,
    isModified: bool,
    isPrimaryKey: bool)

  /** One change-tracker entry: its state, the CLR type name of the entity and its properties. */
  datatype EntityEntry = EntityEntry(state: EntityState, typeName: string, properties: seq<PropertyEntry>)

  /** The (old, new) pair recorded for one field. */
  datatype FieldChange = FieldChange(oldValue: Value, newValue: Value)

  /** What is captured for one entity. */
  datatype EntityChange = EntityChange(
    entityType: string,
    entityId: string,
    operation: string,
    changes: map<string, FieldChange>)

  /** One slot of the captured dictionary, keyed `"Type:PK"`. */
  datatype CapturedEntry = CapturedEntry(key: string, change: EntityChange)

  // ----------------------------------------------------------------------------
  // Property filter, key and labels

  /** The bookkeeping fields that are never audited: row-version columns (named
      `...TimeStamp` or containing `RowVersion`) and EF's internal `__` properties. */
  function ShouldAuditProperty(name: string): (audit: bool)
    ensures audit ==> !(|name| >= 9 && name[|name| - 9..] == "TimeStamp")
    ensures audit ==> !(|name| >= 2 && name[..2] == "__")
    ensures audit ==> forall i: nat :: !OccursAt(name, "RowVersion", i)
  {
    if EndsWith(name, "TimeStamp") || Contains(name, "RowVersion") then false
    else if StartsWith(name, "__") then false
    else
      assert forall i: nat :: !OccursAt(name, "RowVersion", i) by {
        forall i: nat
          ensures !OccursAt(name, "RowVersion", i)
        {
          ContainsAt(name, "RowVersion", i);
        }
      }
      true
  }

  /** Every name of the three excluded shapes is filtered out, wherever the marker
      stands among the other characters. */
  lemma ExcludedNames(a: string, b: string)
    ensures !ShouldAuditProperty(a + "TimeStamp")
    ensures !ShouldAuditProperty(a + "RowVersion" + b)
    ensures !ShouldAuditProperty("__" + a)
  {
    var t := a + "TimeStamp";
    assert t[|t| - 9..] == "TimeStamp";
    ContainsInfix(a, "RowVersion", b);
    assert ("__" + a)[..2] == "__";
  }

  /** Conversely, a name is filtered out only when it has one of the three shapes: `i`
      locates the `RowVersion` marker when that is the reason. */
  lemma ExcludedNameShape(name: string) returns (i: nat)
    requires !ShouldAuditProperty(name)
    ensures || EndsWith(name, "TimeStamp")
            || StartsWith(name, "__")
            || (i + 10 <= |name| && name[i..i + 10] == "RowVersion")
  {
    i := 0;
    if !EndsWith(name, "TimeStamp") && !StartsWith(name, "__") {
      i := ContainsHasPosition(name, "RowVersion");
    }
  }

  /** The text of the first primary-key property's current value, or `"UNKNOWN"`
      when there is no key property or its value is null. */
  function PrimaryKeyValue(props: seq<PropertyEntry>): (pk: string)
    ensures (forall k :: 0 <= k < |props| ==> !props[k].isPrimaryKey) ==> pk == "UNKNOWN"
    ensures forall k :: 0 <= k < |props| && props[k].isPrimaryKey && (forall j :: 0 <= j < k ==> !props[j].isPrimaryKey) ==>
      pk == (match props[k].current case Null => "UNKNOWN" case Val(t) => t)
  {
    if |props| == 0 then "UNKNOWN"
    else if props[0].isPrimaryKey then
      match props[0].current
      case Null => "UNKNOWN"
      case Val(t) => t
    else
      assert forall k :: 1 <= k < |props| ==> props[1..][k - 1] == props[k];
      PrimaryKeyValue(props[1..])
  }

  /** `EntityState.ToString()`. */
  function StateName(state: EntityState): string
  {
    match state
    case Detached => "Detached"
    case Unchanged => "Unchanged"
    case Deleted => "Deleted"
    case Modified => "Modified"
    case Added => "Added"
  }

  /** The entities the audit subsystem itself writes, which are never audited. */
  predicate IsAuditEntity(typeName: string)
  {
    typeName == "ApiAuditLog" || typeName == "ApiAuditLogEntityChange"
  }

  /** Entries the diff looks at: added, modified or deleted, and not audit entities. */
  predicate Examined(e: EntityEntry)
  {
    (e.state == Added || e.state == Modified || e.state == Deleted) && !IsAuditEntity(e.typeName)
  }

  /** Whether a property of an entry in `state` is recorded: every audited property of an
      added or deleted entity, only the modified audited ones of a modified entity. */
  predicate Recorded(state: EntityState, p: PropertyEntry)
  {
    match state
    case Added => ShouldAuditProperty(p.name)
    case Modified => ShouldAuditProperty(p.name) && p.isModified
    case Deleted => ShouldAuditProperty(p.name)
    case _ => false
  }

  /** The pair recorded: (null, current) when added, (original, current) when modified,
      (original, null) when deleted. */
  function ChangeOf(state: EntityState, p: PropertyEntry): FieldChange
  {
    match state
    case Added => FieldChange(Null, p.current)
    case Deleted => FieldChange(p.original, Null)
    case _ => FieldChange(p.original, p.current)
  }

  // ----------------------------------------------------------------------------
  // The diff as functions

  /** The field changes of one entry: the per-property dictionary, filled in property order
      (a later property of the same name overwrites an earlier one). */
  function FieldChanges(state: EntityState, props: seq<PropertyEntry>): (m: map<string, FieldChange>)
    ensures forall f :: f in m ==> ShouldAuditProperty(f)
    ensures state != Added && state != Modified && state != Deleted ==> m == map[]
  {
    if |props| == 0 then map[]
    else
      var m := FieldChanges(state, props[..|props| - 1]);
      var p := props[|props| - 1];
      if Recorded(state, p) then m[p.name := ChangeOf(state, p)] else m
  }

  /** Each recorded field comes from a recorded property with that name, holding that
      property's pair; and every recorded property appears. */
  lemma {:induction false} FieldChangesSpec(state: EntityState, props: seq<PropertyEntry>)
    ensures forall f :: f in FieldChanges(state, props) ==>
      exists k :: 0 <= k < |props| && props[k].name == f && Recorded(state, props[k])
                  && FieldChanges(state, props)[f] == ChangeOf(state, props[k])
    ensures forall k :: 0 <= k < |props| && Recorded(state, props[k]) ==> props[k].name in FieldChanges(state, props)
  {
    if |props| > 0 {
      var init := props[..|props| - 1];
      FieldChangesSpec(state, init);
      assert forall k :: 0 <= k < |init| ==> init[k] == props[k];
    }
  }

  /** `props[k]` is recorded, and no later recorded property has its name. */
  predicate LastRecorded(state: EntityState, props: seq<PropertyEntry>, k: nat)
    requires k < |props|
  {
    && Recorded(state, props[k])
    && forall j :: k < j < |props| && Recorded(state, props[j]) ==> props[j].name != props[k].name
  }

  /** The pair kept under a name is that of the last recorded property with the name: a
      later property of the same name overwrites an earlier one. */
  lemma {:induction false} FieldChangesLast(state: EntityState, props: seq<PropertyEntry>, k: nat)
    requires k < |props| && LastRecorded(state, props, k)
    ensures props[k].name in FieldChanges(state, props)
    ensures FieldChanges(state, props)[props[k].name] == ChangeOf(state, props[k])
  {
    if k < |props| - 1 {
      var init := props[..|props| - 1];
      assert init[k] == props[k];
      assert LastRecorded(state, init, k) by {
        forall j | k < j < |init| && Recorded(state, init[j])
          ensures init[j].name != init[k].name
        {
          assert init[j] == props[j];
        }
      }
      FieldChangesLast(state, init, k);
    }
  }

  /** Consequences for the audit trail: only audited names are recorded; an added entity's
      fields have no old value, a deleted entity's no new value; a modified entity
      records only properties flagged modified, with (original, current). */
  lemma FieldChangesShape(state: EntityState, props: seq<PropertyEntry>, f: string)
    requires f in FieldChanges(state, props)
    ensures ShouldAuditProperty(f)
    ensures state == Added ==> FieldChanges(state, props)[f].oldValue == Null
    ensures state == Deleted ==> FieldChanges(state, props)[f].newValue == Null
    ensures state == Modified ==>
      (exists k :: 0 <= k < |props| && props[k].name == f && props[k].isModified
        && FieldChanges(state, props)[f] == FieldChange(props[k].original, props[k].current))
    ensures state != Added && state != Modified && state != Deleted ==> false
  {
    FieldChangesSpec(state, props);
  }

  /** The captured slot for an examined entry. */
  function EntryOf(e: EntityEntry): CapturedEntry
  {
    var pk := PrimaryKeyValue(e.properties);
    CapturedEntry(e.typeName + ":" + pk,
      EntityChange(e.typeName, pk, StateName(e.state), FieldChanges(e.state, e.properties)))
  }

  /** An entry that ends up in the captured dictionary: examined and with at least one
      field change. */
  predicate Contributes(e: EntityEntry)
  {
    Examined(e) && |FieldChanges(e.state, e.properties)| > 0
  }

  predicate KeysUnique(d: seq<CapturedEntry>)
  {
    forall i, j :: 0 <= i < j < |d| ==> d[i].key != d[j].key
  }

  /** `dictionary[key] = value` on a dictionary that is never removed from: the slot of an
      existing key is overwritten in place, a new key is appended. */
  function Put(d: seq<CapturedEntry>, x: CapturedEntry): (r: seq<CapturedEntry>)
    requires KeysUnique(d)
    ensures x in r
    ensures forall y :: y in r ==> y == x || (y in d && y.key != x.key)
    ensures forall y :: y in d && y.key != x.key ==> y in r
    ensures KeysUnique(r)
  {
    if |d| == 0 then [x]
    else if d[0].key == x.key then [x] + d[1..]
    else [d[0]] + Put(d[1..], x)
  }

  /** The captured dictionary for a list of tracker entries, in insertion order. */
  function CaptureAll(entries: seq<EntityEntry>): (c: seq<CapturedEntry>)
    ensures KeysUnique(c)
  {
    if |entries| == 0 then []
    else
      var c := CaptureAll(entries[..|entries| - 1]);
      var e := entries[|entries| - 1];
      if Contributes(e) then Put(c, EntryOf(e)) else c
  }

  /** `entries[i]` contributes, and no later contributing entry has its key. */
  predicate LastWithKey(entries: seq<EntityEntry>, i: nat)
    requires i < |entries|
  {
    && Contributes(entries[i])
    && forall j :: i < j < |entries| && Contributes(entries[j]) ==> EntryOf(entries[j]).key != EntryOf(entries[i]).key
  }

  /** Every slot of the capture is the capture of some contributing tracker entry. */
  lemma {:induction false} CaptureSound(entries: seq<EntityEntry>)
    ensures forall x :: x in CaptureAll(entries) ==>
      exists i :: 0 <= i < |entries| && Contributes(entries[i]) && x == EntryOf(entries[i])
  {
    if |entries| > 0 {
      var init := entries[..|entries| - 1];
      var e := entries[|entries| - 1];
      CaptureSound(init);
      forall x | x in CaptureAll(entries)
        ensures exists i :: 0 <= i < |entries| && Contributes(entries[i]) && x == EntryOf(entries[i])
      {
        if Contributes(e) && x == EntryOf(e) {
          assert entries[|entries| - 1] == e;
        } else {
          assert x in CaptureAll(init);
          var i :| 0 <= i < |init| && Contributes(init[i]) && x == EntryOf(init[i]);
          assert entries[i] == init[i];
        }
      }
    }
  }

  /** An entry whose key no later contributing entry repeats is captured as it is, so a
      later entry with the same key overwrites an earlier one. */
  lemma {:induction false} CaptureComplete(entries: seq<EntityEntry>)
    ensures forall i :: 0 <= i < |entries| && LastWithKey(entries, i) ==> EntryOf(entries[i]) in CaptureAll(entries)
  {
    if |entries| > 0 {
      var init := entries[..|entries| - 1];
      var e := entries[|entries| - 1];
      CaptureComplete(init);
      forall i | 0 <= i < |entries| && LastWithKey(entries, i)
        ensures EntryOf(entries[i]) in CaptureAll(entries)
      {
        if i < |entries| - 1 {
          assert init[i] == entries[i];
          forall j | i < j < |init| && Contributes(init[j])
            ensures EntryOf(init[j]).key != EntryOf(init[i]).key
          {
            assert init[j] == entries[j];
          }
          assert LastWithKey(init, i);
          assert EntryOf(entries[i]) in CaptureAll(init);
        }
      }
    }
  }

  /** Every captured entity is a non-audit entity that was added, modified or deleted,
      labelled with that state's name, with at least one change and only audited fields. */
  lemma CapturedShape(entries: seq<EntityEntry>, x: CapturedEntry)
    requires x in CaptureAll(entries)
    ensures x.change.operation in {"Added", "Modified", "Deleted"}
    ensures !IsAuditEntity(x.change.entityType)
    ensures x.key == x.change.entityType + ":" + x.change.entityId
    ensures |x.change.changes| > 0
    ensures forall f :: f in x.change.changes ==> ShouldAuditProperty(f)
  {
    CaptureSound(entries);
    var i :| 0 <= i < |entries| && Contributes(entries[i]) && x == EntryOf(entries[i]);
    var e := entries[i];
    forall f | f in x.change.changes
      ensures ShouldAuditProperty(f)
    {
      FieldChangesShape(e.state, e.properties, f);
    }
  }

  // ----------------------------------------------------------------------------
  // The audit service's side

  /** One call of `LogEntityChangeAsync` and whether it went through. */
  datatype LogCall = LogCall(auditLogId: int, change: EntityChange, succeeded: bool)

  /** The calls logging makes: one per captured entity, in dictionary order; the
      entities whose keys are in `failing` are the ones whose call throws. */
  function LogCalls(auditLogId: int, captured: seq<CapturedEntry>, failing: set<string>): (calls: seq<LogCall>)
    ensures |calls| == |captured|
    ensures forall i :: 0 <= i < |captured| ==>
      calls[i] == LogCall(auditLogId, captured[i].change, captured[i].key !in failing)
  {
    if |captured| == 0 then []
    else
      LogCalls(auditLogId, captured[..|captured| - 1], failing)
        + [LogCall(auditLogId, captured[|captured| - 1].change, captured[|captured| - 1].key !in failing)]
  }

  /** The outcome of the underlying commit. */
  datatype CommitOutcome = Committed(count: int) | CommitFails(message: string)

  /** The outcome of `SaveChangesAsync`: the commit's row count, or the commit's exception. */
  datatype SaveResult = Saved(count: int) | Threw(message: string)

  /**
    The database context's audit-related state: whether an audit service was injected,
    the current audit header id, the change tracker's pending entries, and the calls
    made to the audit service so far.
   */
  class AuditingContext {
    const hasAuditService: bool
    var currentAuditLogId: Option<int>
    var tracker: seq<EntityEntry>
    var calls: seq<LogCall>

    constructor (hasAuditService: bool)
      ensures this.hasAuditService == hasAuditService
      ensures currentAuditLogId == None && tracker == [] && calls == []
    {
      this.hasAuditService := hasAuditService;
      currentAuditLogId := None;
      tracker := [];
      calls := [];
    }

    /** Stages entity changes in the tracker (the domain code's `Add` and property writes). */
    method Track(entries: seq<EntityEntry>)
      modifies this`tracker
      ensures tracker == old(tracker) + entries
    {
      tracker := tracker + entries;
    }

    /** `SetCurrentAuditLogId`: later saves attach their changes to this header. */
    method SetCurrentAuditLogId(auditLogId: int)
      modifies this`currentAuditLogId
      ensures currentAuditLogId == Some(auditLogId)
    {
      currentAuditLogId := Some(auditLogId);
    }

    /** `CaptureEntityChanges`: walks the tracker entries and their properties, building
        the dictionary of captured entities. */
    static method CaptureEntityChanges(entries: seq<EntityEntry>) returns (captured: seq<CapturedEntry>)
      ensures captured == CaptureAll(entries)
    {
      captured := [];
      var i := 0;
      while i < |entries|
        invariant 0 <= i <= |entries|
        invariant captured == CaptureAll(entries[..i])
      {
        var entry := entries[i];
        assert entries[..i + 1][..i] == entries[..i];
        if Examined(entry) {
          var changes: map<string, FieldChange> := map[];
          var j := 0;
          while j < |entry.properties|
            invariant 0 <= j <= |entry.properties|
            invariant changes == FieldChanges(entry.state, entry.properties[..j])
          {
            var property := entry.properties[j];
            assert entry.properties[..j + 1][..j] == entry.properties[..j];
            if Recorded(entry.state, property) {
              changes := changes[property.name := ChangeOf(entry.state, property)];
            }
            j := j + 1;
          }
          assert entry.properties[..j] == entry.properties;
          if |changes| > 0 {
            var pk := PrimaryKeyValue(entry.properties);
            var key := entry.typeName + ":" + pk;
            captured := Put(captured, CapturedEntry(key, EntityChange(entry.typeName, pk, StateName(entry.state), changes)));
          }
        }
        i := i + 1;
      }
      assert entries[..i] == entries;
    }

    /** `LogCapturedChangesAsync`: one call per captured entity, a failing call swallowed. */
    method LogCapturedChanges(captured: seq<CapturedEntry>, failing: set<string>)
      modifies this`calls
      ensures hasAuditService && currentAuditLogId.Some? ==>
        calls == old(calls) + LogCalls(currentAuditLogId.value, captured, failing)
      ensures !(hasAuditService && currentAuditLogId.Some?) ==> calls == old(calls)
    {
      if !hasAuditService || currentAuditLogId.None? {
        return;
      }
      var auditLogId := currentAuditLogId.value;
      var i := 0;
      while i < |captured|
        invariant 0 <= i <= |captured|
        invariant calls == old(calls) + LogCalls(auditLogId, captured[..i], failing)
      {
        assert captured[..i + 1][..i] == captured[..i];
        var change := captured[i];
        // a throwing call is caught and ignored; the loop goes on
        calls := calls + [LogCall(auditLogId, change.change, change.key !in failing)];
        i := i + 1;
      }
      assert captured[..i] == captured;
    }

    /**
      `SaveChangesAsync`. Captures only when an audit id is set and an audit service is
      present; commits; logs what was captured; clears the audit id. A failing commit
      propagates its exception before logging and before the id is cleared.
      Logging failures never change the returned count.
     */
    method SaveChanges(commit: CommitOutcome, failing: set<string>) returns (result: SaveResult)
      modifies this`tracker, this`calls, this`currentAuditLogId
      ensures commit.CommitFails? ==>
        && result == Threw(commit.message)
        && currentAuditLogId == old(currentAuditLogId)
        && tracker == old(tracker)
        && calls == old(calls)
      ensures commit.Committed? ==>
        && result == Saved(commit.count)
        && currentAuditLogId == None
        && tracker == []
        && calls == old(calls) + (if hasAuditService && old(currentAuditLogId).Some?
                                  then LogCalls(old(currentAuditLogId).value, CaptureAll(old(tracker)), failing)
                                  else [])
    {
      var captured: Option<seq<CapturedEntry>> := None;
      if currentAuditLogId.Some? && hasAuditService {
        var c := CaptureEntityChanges(tracker);
        captured := Some(c);
      }
      if commit.CommitFails? {
        return Threw(commit.message);
      }
      tracker := [];
      if captured.Some? && |captured.value| > 0 {
        LogCapturedChanges(captured.value, failing);
      }
      currentAuditLogId := None;
      result := Saved(commit.count);
    }
  }

  /** Two saves in a row: the first, after `SetCurrentAuditLogId`, logs one call per
      captured entity even though every call fails; the second logs nothing. */
  method AuditIdScenario()
  {
    var ctx := new AuditingContext(true);
    var pk := PropertyEntry("IDStavkaDokumenta", Val("5"), Val("5"), false, true);
    var qty := PropertyEntry("Kolicina", Val("10"), Val("12"), true, false);
    var stamp := PropertyEntry("StavkaDokumentaTimeStamp", Val("AAE="), Val("AAI="), true, false);
    var entry := EntityEntry(Modified, "DocumentLineItem", [pk, qty, stamp]);
    ctx.Track([entry]);
    ctx.SetCurrentAuditLogId(42);
    var r1 := ctx.SaveChanges(Committed(1), {"DocumentLineItem:5"});
    assert r1 == Saved(1);
    assert ctx.currentAuditLogId == None;

    ctx.Track([entry]);
    var r2 := ctx.SaveChanges(Committed(1), {});
    assert r2 == Saved(1);
    assert |ctx.calls| == |LogCalls(42, CaptureAll([entry]), {"DocumentLineItem:5"})|;
  }
}

=== FILE: LineItems.dfy ===
/**
  The document line-item endpoints with their optimistic-concurrency protocol.

  Every row carries a row version that the database bumps on each write that changes
  the row. Clients see it as an entity tag: the base64 text of the version's bytes,
  wrapped in double quotes in the `ETag` header (the `entity-tag` syntax of section
  8.8.3 of RFC 9110) and unquoted in the response body. A PATCH must present the tag
  in `If-Match`; a stale tag is answered with 409 and the live tag.
 */
module LineItems {
  import opened Wrappers
  import opened Text
  import opened Base64

  // ----------------------------------------------------------------------------
  // Version stamps and entity tags

  /** The bytes of row version `v`: big-endian, without leading zero bytes. */
  function StampOf(v: nat): (s: seq<Byte>)
    ensures |s| > 0
  {
    if v < 256 then [v] else StampOf(v / 256) + [v % 256]
  }

  /** The number a big-endian byte string stands for. */
  function StampValue(s: seq<Byte>): nat
  {
    if |s| == 0 then 0 else StampValue(s[..|s| - 1]) * 256 + s[|s| - 1]
  }

  /** The stamp bytes determine the row version. */
  lemma {:induction false} StampValueOf(v: nat)
    ensures StampValue(StampOf(v)) == v
  {
    if v >= 256 {
      var s := StampOf(v);
      assert s[..|s| - 1] == StampOf(v / 256);
      StampValueOf(v / 256);
    }
  }

  /** Two row versions have the same stamp only when they are equal. */
  lemma StampInjective(a: nat, b: nat)
    ensures StampOf(a) == StampOf(b) <==> a == b
  {
    StampValueOf(a);
    StampValueOf(b);
  }

  predicate IsQuote(c: char)
  {
    c == '"'
  }

  /** The `ETag` header value for a tag: the tag between double quotes. */
  function QuoteETag(tag: string): string
  {
    "\"" + tag + "\""
  }

  /** `ifMatch.Trim('"')`: strips every leading and trailing double quote. */
  function TrimQuotes(s: string): (r: string)
    ensures |r| > 0 ==> r[0] != '"' && r[|r| - 1] != '"'
    ensures (forall k :: 0 <= k < |s| ==> s[k] != '"') ==> r == s
  {
    TrimBy(s, IsQuote)
  }

  /** The unquoted tag of a row: base64 of its stamp. */
  function ETagOf(item: LineItem): string
  {
    Encode(StampOf(item.rowVersion))
  }

  /** The header the server emits, trimmed and decoded as a PATCH does, gives back the
      stamp it was made from. */
  lemma ETagRoundTrip(stamp: seq<Byte>)
    ensures Decode(TrimQuotes(QuoteETag(Encode(stamp)))) == Some(stamp)
  {
    var tag := Encode(stamp);
    EncodeAlphabet(stamp);
    forall k | 0 <= k < |tag|
      ensures !IsQuote(tag[k])
    {
      assert IsEncodedChar(tag[k]);
    }
    assert QuoteETag(tag) == ['"'] + tag + ['"'];
    TrimByWrapped(tag, '"', IsQuote);
    DecodeEncode(stamp);
  }

  /** A tag the server once issued for row version `seen` passes the version check
      against row version `live` exactly when the two versions are equal. */
  lemma IssuedTagMatches(seen: nat, live: nat)
    ensures Decode(TrimQuotes(QuoteETag(Encode(StampOf(seen))))) == Some(StampOf(live)) <==> seen == live
  {
    ETagRoundTrip(StampOf(seen));
    StampInjective(seen, live);
  }

  // ----------------------------------------------------------------------------
  // Entities, requests and responses

  /** A row of the line-item table. Money and quantities are opaque integers;
      `taxPercent`, `taxAmount` and `total` are filled in by the database. */
  datatype LineItem = LineItem(
    documentId: int,
    articleId: int,
    quantity: int,
    invoicePrice: int,
    discountAmount: int,
    marginAmount: int,
    taxRateId: Option<string>,
    calculateExcise: int,
    calculateTax: int,
    description: Option<string>,
    taxPercent: int,
    taxAmount: int,
    total: int,
    createdAt: int,
    updatedAt: int,
    isDeleted: bool,
    rowVersion: nat)

  /** The body of a POST. */
  datatype CreateLineItem = CreateLineItem(
    articleId: int,
    quantity: int,
    invoicePrice: int,
    discountAmount: Option<int>,
    marginAmount: Option<int>,
    taxRateId: Option<string>,
    calculateExcise: bool,
    calculateTax: bool,
    description: Option<string>)

  /** The body of a PATCH: absent fields are left as they are. */
  datatype LineItemPatch = LineItemPatch(
    quantity: Option<int>,
    invoicePrice: Option<int>,
    discountAmount: Option<int>,
    marginAmount: Option<int>,
    taxRateId: Option<string>,
    calculateExcise: Option<bool>,
    calculateTax: Option<bool>,
    description: Option<string>)

  /** The line item as the API returns it; `etag` is the unquoted tag. */
  datatype LineItemDto = LineItemDto(
    id: int,
    documentId: int,
    articleId: int,
    quantity: int,
    invoicePrice: int,
    discountAmount: int,
    marginAmount: int,
    taxRateId: Option<string>,
    taxPercent: int,
    taxAmount: int,
    total: int,
    calculateExcise: bool,
    calculateTax: bool,
    description: Option<string>,
    etag: string,
    createdAt: int,
    updatedAt: int)

  /** The route values of `GetItem` for one row; `CreatedAtAction` builds the `Location`
      header from them. */
  datatype ItemRoute = ItemRoute(documentId: int, itemId: int)

  /** The answers of the single-item endpoints. `Ok` and `Created` carry the `ETag`
      header value, `Created` also the `Location` route; `Conflict` carries the live
      unquoted tag. */
  datatype Response =
    | Ok(item: LineItemDto, etagHeader: string)
    | Created(item: LineItemDto, etagHeader: string, location: ItemRoute)
    | NoContent
    | BadRequest(message: string)
    | NotFound(notice: Option<string>)
    | Conflict(currentETag: string)
  {
    function Status(): int
    {
      match this
      case Ok(_, _) => 200
      case Created(_, _, _) => 201
      case NoContent => 204
      case BadRequest(_) => 400
      case NotFound(_) => 404
      case Conflict(_) => 409
    }
  }

  const MissingIfMatch := "Missing If-Match header (ETag required)"
  const InvalidETag := "Invalid ETag format"
  const ItemNotFound := "Stavka nije pronađena"
  const DocumentNotFound := "Dokument nije pronađen"

  function BoolFlag(b: bool): int
  {
    if b then 1 else 0
  }

  /** The DTO of a row as GET and PATCH build it. */
  function ToDto(id: int, item: LineItem): (d: LineItemDto)
    ensures d.id == id && d.documentId == item.documentId
    ensures d.calculateExcise <==> item.calculateExcise == 1
    ensures d.calculateTax <==> item.calculateTax == 1
    ensures d.articleId == item.articleId && d.quantity == item.quantity && d.invoicePrice == item.invoicePrice
    ensures d.discountAmount == item.discountAmount && d.marginAmount == item.marginAmount
    ensures d.taxRateId == item.taxRateId && d.taxPercent == item.taxPercent && d.taxAmount == item.taxAmount
    ensures d.total == item.total && d.description == item.description
    ensures d.createdAt == item.createdAt && d.updatedAt == item.updatedAt
    ensures d.etag == ETagOf(item) && Decode(d.etag) == Some(StampOf(item.rowVersion))
  {
    DecodeEncode(StampOf(item.rowVersion));
    LineItemDto(id, item.documentId, item.articleId, item.quantity, item.invoicePrice,
      item.discountAmount, item.marginAmount, item.taxRateId, item.taxPercent, item.taxAmount,
      item.total, item.calculateExcise == 1, item.calculateTax == 1, item.description,
      ETagOf(item), item.createdAt, item.updatedAt)
  }

  /** A new row as POST builds it before saving; the row version is the one the insert gets. */
  function NewItem(documentId: int, dto: CreateLineItem, now: int, version: nat): (item: LineItem)
    ensures item.documentId == documentId && !item.isDeleted && item.rowVersion == version
    ensures item.quantity == dto.quantity && item.invoicePrice == dto.invoicePrice
    ensures item.discountAmount == dto.discountAmount.GetOr(0) && item.marginAmount == dto.marginAmount.GetOr(0)
    ensures item.calculateExcise == BoolFlag(dto.calculateExcise) && item.calculateTax == BoolFlag(dto.calculateTax)
    ensures item.createdAt == now && item.updatedAt == now
    ensures item.articleId == dto.articleId && item.taxRateId == dto.taxRateId && item.description == dto.description
    ensures item.taxPercent == 0 && item.taxAmount == 0 && item.total == 0
  {
    LineItem(documentId, dto.articleId, dto.quantity, dto.invoicePrice,
      dto.discountAmount.GetOr(0), dto.marginAmount.GetOr(0), dto.taxRateId,
      BoolFlag(dto.calculateExcise), BoolFlag(dto.calculateTax), dto.description,
      0, 0, 0, now, now, false, version)
  }

  /**
    The merge-patch of a PATCH: each field present in the patch overwrites the row's,
    every other field is left as it was, and `updatedAt` becomes `now`.
   */
  function MergePatch(item: LineItem, patch: LineItemPatch, now: int): (r: LineItem)
    ensures r.updatedAt == now
    ensures r.(quantity := item.quantity, invoicePrice := item.invoicePrice,
               discountAmount := item.discountAmount, marginAmount := item.marginAmount,
               taxRateId := item.taxRateId, calculateExcise := item.calculateExcise,
               calculateTax := item.calculateTax, description := item.description,
               updatedAt := item.updatedAt) == item
    ensures patch.quantity.Some? ==> r.quantity == patch.quantity.value
    ensures patch.quantity.None? ==> r.quantity == item.quantity
    ensures patch.invoicePrice.Some? ==> r.invoicePrice == patch.invoicePrice.value
    ensures patch.invoicePrice.None? ==> r.invoicePrice == item.invoicePrice
    ensures patch.discountAmount.Some? ==> r.discountAmount == patch.discountAmount.value
    ensures patch.discountAmount.None? ==> r.discountAmount == item.discountAmount
    ensures patch.marginAmount.Some? ==> r.marginAmount == patch.marginAmount.value
    ensures patch.marginAmount.None? ==> r.marginAmount == item.marginAmount
    ensures patch.taxRateId.Some? ==> r.taxRateId == patch.taxRateId
    ensures patch.taxRateId.None? ==> r.taxRateId == item.taxRateId
    ensures patch.calculateExcise.Some? ==> r.calculateExcise == BoolFlag(patch.calculateExcise.value)
    ensures patch.calculateExcise.None? ==> r.calculateExcise == item.calculateExcise
    ensures patch.calculateTax.Some? ==> r.calculateTax == BoolFlag(patch.calculateTax.value)
    ensures patch.calculateTax.None? ==> r.calculateTax == item.calculateTax
    ensures patch.description.Some? ==> r.description == patch.description
    ensures patch.description.None? ==> r.description == item.description
  {
    item.(
      quantity := patch.quantity.GetOr(item.quantity),
      invoicePrice := patch.invoicePrice.GetOr(item.invoicePrice),
      discountAmount := patch.discountAmount.GetOr(item.discountAmount),
      marginAmount := patch.marginAmount.GetOr(item.marginAmount),
      taxRateId := if patch.taxRateId.Some? then patch.taxRateId else item.taxRateId,
      calculateExcise := if patch.calculateExcise.Some? then BoolFlag(patch.calculateExcise.value) else item.calculateExcise,
      calculateTax := if patch.calculateTax.Some? then BoolFlag(patch.calculateTax.value) else item.calculateTax,
      description := if patch.description.Some? then patch.description else item.description,
      updatedAt := now)
  }

  /** What a save leaves in a row that was `before` and is now `after` in memory: no
      UPDATE is issued when nothing changed; otherwise the row takes the new values and
      the database's next row version. */
  function Persisted(before: LineItem, after: LineItem, version: nat): (r: LineItem)
    requires after.rowVersion == before.rowVersion
    ensures r == before <==> after == before
    ensures r != before ==> r.rowVersion == version && r.(rowVersion := before.rowVersion) == after
  {
    if after == before then before else after.(rowVersion := version)
  }

  /** The outcome of the checks a PATCH makes before it touches the row. */
  datatype Precheck = MissingTag | MalformedTag | Absent | Stale(currentETag: string) | Proceed

  /**
    The checks of a PATCH, in the order the handler makes them: the `If-Match` header
    must be present and non-empty; stripped of quotes it must be base64; the row must
    exist, belong to the document and not be deleted (`current`); its stamp must equal
    the decoded bytes.
   */
  function CheckIfMatch(ifMatch: Option<string>, current: Option<LineItem>): (d: Precheck)
    ensures d == MissingTag <==> IsNullOrEmpty(ifMatch)
    ensures d == MalformedTag <==> !IsNullOrEmpty(ifMatch) && Decode(TrimQuotes(ifMatch.value)).None?
    ensures d == Absent <==> !IsNullOrEmpty(ifMatch) && Decode(TrimQuotes(ifMatch.value)).Some? && current.None?
    ensures d.Stale? <==>
      !IsNullOrEmpty(ifMatch) && current.Some? && Decode(TrimQuotes(ifMatch.value)).Some?
      && Decode(TrimQuotes(ifMatch.value)) != Some(StampOf(current.value.rowVersion))
    ensures d.Stale? ==> d.currentETag == ETagOf(current.value)
    ensures d == Proceed <==>
      !IsNullOrEmpty(ifMatch) && current.Some? && Decode(TrimQuotes(ifMatch.value)) == Some(StampOf(current.value.rowVersion))
  {
    if IsNullOrEmpty(ifMatch) then MissingTag
    else match Decode(TrimQuotes(ifMatch.value))
      case None => MalformedTag
      case Some(expected) =>
        match current
        case None => Absent
        case Some(item) =>
          if StampOf(item.rowVersion) != expected then Stale(ETagOf(item)) else Proceed
  }

  /** A missing or empty header is refused before the row is even looked at. */
  lemma MissingTagFirst(ifMatch: Option<string>, a: Option<LineItem>, b: Option<LineItem>)
    requires IsNullOrEmpty(ifMatch)
    ensures CheckIfMatch(ifMatch, a) == CheckIfMatch(ifMatch, b) == MissingTag
  {
  }

  /** The header that GET (or a previous PATCH) issued for row version `seen` is accepted
      exactly while the row is still at that version, and otherwise the conflict
      carries the live tag. */
  lemma IssuedHeaderCheck(seen: nat, item: LineItem)
    ensures seen == item.rowVersion ==> CheckIfMatch(Some(QuoteETag(Encode(StampOf(seen)))), Some(item)) == Proceed
    ensures seen != item.rowVersion ==> CheckIfMatch(Some(QuoteETag(Encode(StampOf(seen)))), Some(item)) == Stale(ETagOf(item))
  {
    ETagRoundTrip(StampOf(seen));
    StampInjective(seen, item.rowVersion);
  }

  // ----------------------------------------------------------------------------
  // The store and the endpoints

  /**
    The line-item table as the controller sees it through the database context:
    rows by identity, the identities of existing documents, the next identity the
    table will hand out and the database's next row version.
   */
  class LineItemStore {
    var documents: set<int>
    var items: map<int, LineItem>
    var nextId: int
    var nextVersion: nat

    /** Identities are positive and below the next one; every row belongs to an existing
        document and has a version the database already handed out. */
    ghost predicate Valid()
      reads this
    {
      && 0 < nextId
      && forall id :: id in items ==>
           && 0 < id < nextId
           && items[id].documentId in documents
           && items[id].rowVersion < nextVersion
    }

    constructor (documents: set<int>)
      ensures Valid() && this.documents == documents && items == map[]
    {
      this.documents := documents;
      items := map[];
      nextId := 1;
      nextVersion := 1;
    }

    /** The row a single-item query finds: it exists, belongs to the document and is not
        soft-deleted. */
    function Lookup(documentId: int, itemId: int): (r: Option<LineItem>)
      reads this
      ensures r.Some? <==> itemId in items && items[itemId].documentId == documentId && !items[itemId].isDeleted
      ensures r.Some? ==> r.value == items[itemId]
    {
      if itemId in items && items[itemId].documentId == documentId && !items[itemId].isDeleted
      then Some(items[itemId]) else None
    }

    /** GET /documents/{documentId}/items: the live rows of the document. */
    method GetItems(documentId: int) returns (dtos: set<LineItemDto>)
      ensures forall d :: d in dtos ==> d.id in items && Lookup(documentId, d.id).Some? && d == ToDto(d.id, items[d.id])
      ensures forall id :: Lookup(documentId, id).Some? ==> ToDto(id, items[id]) in dtos
    {
      dtos := set id | id in items && items[id].documentId == documentId && !items[id].isDeleted :: ToDto(id, items[id]);
    }

    /** GET /documents/{documentId}/items/{itemId}: 404 unless the row is live; otherwise
        the row with its tag, and the quoted header decodes back to the stored stamp. */
    method GetItem(documentId: int, itemId: int) returns (r: Response)
      ensures Lookup(documentId, itemId).None? ==> r == NotFound(Some(ItemNotFound))
      ensures Lookup(documentId, itemId).Some? ==>
        && r.Ok?
        && r.item == ToDto(itemId, items[itemId])
        && r.etagHeader == QuoteETag(r.item.etag)
        && Decode(TrimQuotes(r.etagHeader)) == Some(StampOf(items[itemId].rowVersion))
    {
      var item := Lookup(documentId, itemId);
      if item.None? {
        return NotFound(Some(ItemNotFound));
      }
      var etag := ETagOf(item.value);
      ETagRoundTrip(StampOf(item.value.rowVersion));
      r := Ok(ToDto(itemId, item.value), QuoteETag(etag));
    }

    /** POST /documents/{documentId}/items: 404 when the document does not exist;
        otherwise a new row under a fresh identity, answered with 201 and its tag. */
    method CreateItem(documentId: int, dto: CreateLineItem, now: int) returns (r: Response)
      requires Valid()
      modifies this
      ensures Valid() && documents == old(documents)
      ensures documentId !in documents ==> r == NotFound(Some(DocumentNotFound)) && unchanged(this)
      ensures documentId in documents ==>
        var id := old(nextId);
        var item := NewItem(documentId, dto, now, old(nextVersion));
        && id !in old(items)
        && items == old(items)[id := item]
        && Lookup(documentId, id) == Some(item)
        && r == Created(ToDto(id, item).(taxPercent := 0, taxAmount := 0), QuoteETag(ETagOf(item)), ItemRoute(documentId, id))
        && r.etagHeader == QuoteETag(r.item.etag)
        && r.location == ItemRoute(r.item.documentId, r.item.id)
    {
      if documentId !in documents {
        return NotFound(Some(DocumentNotFound));
      }
      var id := nextId;
      var item := NewItem(documentId, dto, now, nextVersion);
      items := items[id := item];
      nextId := nextId + 1;
      nextVersion := nextVersion + 1;
      var etag := ETagOf(item);
      r := Created(ToDto(id, item).(taxPercent := 0, taxAmount := 0), QuoteETag(etag), ItemRoute(documentId, id));
    }

    /** SaveChanges for one tracked row: re-stamps it when its values changed. */
    method Save(id: int, updated: LineItem)
      requires Valid() && id in items
      requires updated.rowVersion == items[id].rowVersion && updated.documentId == items[id].documentId
      modifies this
      ensures Valid() && documents == old(documents) && nextId == old(nextId)
      ensures items == old(items)[id := Persisted(old(items[id]), updated, old(nextVersion))]
      ensures updated != old(items[id]) ==> items[id].rowVersion !in set k | k in old(items) :: old(items[k]).rowVersion
    {
      if updated != items[id] {
        items := items[id := updated.(rowVersion := nextVersion)];
        nextVersion := nextVersion + 1;
      }
    }

    /** The in-place field assignments of a PATCH: each present field overwrites the
        item's, then `UpdatedAt` is refreshed. */
    static method ApplyPatch(item: LineItem, patch: LineItemPatch, now: int) returns (patched: LineItem)
      ensures patched == MergePatch(item, patch, now)
    {
      patched := item;
      // the asserts restate the fields patched so far, keeping the final comparison small
      if patch.quantity.Some? {
        patched := patched.(quantity := patch.quantity.value);
      }
      if patch.invoicePrice.Some? {
        patched := patched.(invoicePrice := patch.invoicePrice.value);
      }
      assert patched == item.(
        quantity := patch.quantity.GetOr(item.quantity),
        invoicePrice := patch.invoicePrice.GetOr(item.invoicePrice));
      if patch.discountAmount.Some? {
        patched := patched.(discountAmount := patch.discountAmount.value);
      }
      if patch.marginAmount.Some? {
        patched := patched.(marginAmount := patch.marginAmount.value);
      }
      assert patched == item.(
        quantity := patch.quantity.GetOr(item.quantity),
        invoicePrice := patch.invoicePrice.GetOr(item.invoicePrice),
        discountAmount := patch.discountAmount.GetOr(item.discountAmount),
        marginAmount := patch.marginAmount.GetOr(item.marginAmount));
      if patch.taxRateId.Some? {
        patched := patched.(taxRateId := patch.taxRateId);
      }
      if patch.calculateExcise.Some? {
        patched := patched.(calculateExcise := BoolFlag(patch.calculateExcise.value));
      }
      assert patched == item.(
        quantity := patch.quantity.GetOr(item.quantity),
        invoicePrice := patch.invoicePrice.GetOr(item.invoicePrice),
        discountAmount := patch.discountAmount.GetOr(item.discountAmount),
        marginAmount := patch.marginAmount.GetOr(item.marginAmount),
        taxRateId := if patch.taxRateId.Some? then patch.taxRateId else item.taxRateId,
        calculateExcise := if patch.calculateExcise.Some? then BoolFlag(patch.calculateExcise.value) else item.calculateExcise);
      if patch.calculateTax.Some? {
        patched := patched.(calculateTax := BoolFlag(patch.calculateTax.value));
      }
      if patch.description.Some? {
        patched := patched.(description := patch.description);
      }
      assert patched == item.(
        quantity := patch.quantity.GetOr(item.quantity),
        invoicePrice := patch.invoicePrice.GetOr(item.invoicePrice),
        discountAmount := patch.discountAmount.GetOr(item.discountAmount),
        marginAmount := patch.marginAmount.GetOr(item.marginAmount),
        taxRateId := if patch.taxRateId.Some? then patch.taxRateId else item.taxRateId,
        calculateExcise := if patch.calculateExcise.Some? then BoolFlag(patch.calculateExcise.value) else item.calculateExcise,
        calculateTax := if patch.calculateTax.Some? then BoolFlag(patch.calculateTax.value) else item.calculateTax,
        description := if patch.description.Some? then patch.description else item.description);
      patched := patched.(updatedAt := now);
    }

    /**
      PATCH /documents/{documentId}/items/{itemId}. The checks of `CheckIfMatch` decide
      400, 404 or 409, and then nothing changes; 409 carries the live tag. On a match the
      present patch fields and `updatedAt` are written, the row is saved, and 200 carries
      the new tag in the header and the DTO.
     */
    method UpdateItem(documentId: int, itemId: int, ifMatch: Option<string>, patch: LineItemPatch, now: int)
      returns (r: Response)
      requires Valid()
      modifies this
      ensures Valid() && documents == old(documents) && nextId == old(nextId)
      ensures match CheckIfMatch(ifMatch, old(Lookup(documentId, itemId)))
        case MissingTag => r == BadRequest(MissingIfMatch) && unchanged(this)
        case MalformedTag => r == BadRequest(InvalidETag) && unchanged(this)
        case Absent => r == NotFound(Some(ItemNotFound)) && unchanged(this)
        case Stale(live) => r == Conflict(live) && unchanged(this)
        case Proceed =>
          && items == old(items)[itemId := Persisted(old(items[itemId]), MergePatch(old(items[itemId]), patch, now), old(nextVersion))]
          && r == Ok(ToDto(itemId, items[itemId]), QuoteETag(ETagOf(items[itemId])))
          && r.etagHeader == QuoteETag(r.item.etag)
    {
      if IsNullOrEmpty(ifMatch) {
        return BadRequest(MissingIfMatch);
      }
      var expected := Decode(TrimQuotes(ifMatch.value));
      if expected.None? {
        return BadRequest(InvalidETag);
      }
      var found := Lookup(documentId, itemId);
      if found.None? {
        return NotFound(Some(ItemNotFound));
      }
      var item := found.value;
      if StampOf(item.rowVersion) != expected.value {
        return Conflict(ETagOf(item));
      }
      item := ApplyPatch(item, patch, now);
      Save(itemId, item);
      var newETag := ETagOf(items[itemId]);
      r := Ok(ToDto(itemId, items[itemId]), QuoteETag(newETag));
    }

    /** DELETE /documents/{documentId}/items/{itemId}: no tag is asked for; a live row is
        marked deleted (which re-stamps it) and 204 is returned, anything else is 404. */
    method DeleteItem(documentId: int, itemId: int) returns (r: Response)
      requires Valid()
      modifies this
      ensures Valid() && documents == old(documents) && nextId == old(nextId)
      ensures old(Lookup(documentId, itemId)).None? ==> r == NotFound(None) && unchanged(this)
      ensures old(Lookup(documentId, itemId)).Some? ==>
        && r == NoContent
        && items == old(items)[itemId := old(items[itemId]).(isDeleted := true, rowVersion := old(nextVersion))]
        && Lookup(documentId, itemId).None?
    {
      var found := Lookup(documentId, itemId);
      if found.None? {
        return NotFound(None);
      }
      Save(itemId, found.value.(isDeleted := true));
      r := NoContent;
    }
  }

  /**
    A create followed by two PATCHes with the tag the create issued: the first is
    accepted, the second is stale and its conflict carries the tag of the new version.
   */
  method StaleTagScenario()
  {
    var store := new LineItemStore({7});
    var create := CreateLineItem(100, 10, 500, None, None, None, false, true, None);
    var r0 := store.CreateItem(7, create, 1);
    var id := r0.item.id;
    var v0 := store.items[id].rowVersion;

    var twelve := LineItemPatch(Some(12), None, None, None, None, None, None, None);
    IssuedHeaderCheck(v0, store.items[id]);
    var r1 := store.UpdateItem(7, id, Some(r0.etagHeader), twelve, 2);
    assert r1.Status() == 200 && r1.item.quantity == 12;

    IssuedHeaderCheck(v0, store.items[id]);
    var r2 := store.UpdateItem(7, id, Some(r0.etagHeader), twelve, 3);
    assert r2 == Conflict(r1.item.etag);
  }

  /** A PATCH with no fields and the current tag is accepted, refreshes the modification
      time and so issues a new tag. */
  method EmptyPatchScenario()
  {
    var store := new LineItemStore({7});
    var create := CreateLineItem(100, 10, 500, None, None, None, false, true, None);
    var r0 := store.CreateItem(7, create, 1);
    var id := r0.item.id;

    var empty := LineItemPatch(None, None, None, None, None, None, None, None);
    IssuedHeaderCheck(store.items[id].rowVersion, store.items[id]);
    var v0 := store.items[id].rowVersion;
    var r1 := store.UpdateItem(7, id, Some(r0.etagHeader), empty, 4);
    assert r1.Status() == 200 && r1.item.quantity == 10 && r1.item.updatedAt == 4;

    // the modification time changed, so the row was re-stamped and the tag is new
    var v1 := store.items[id].rowVersion;
    assert v1 != v0;
    StampInjective(v0, v1);
    EncodeInjective(StampOf(v0), StampOf(v1));
    assert r1.item.etag != r0.item.etag;
  }

  /** A DELETE needs no tag; a second DELETE finds nothing and the listing omits the item. */
  method DeleteTwiceScenario()
  {
    var store := new LineItemStore({7});
    var create := CreateLineItem(100, 10, 500, None, None, None, false, true, None);
    var r0 := store.CreateItem(7, create, 1);
    var id := r0.item.id;
    var d1 := store.DeleteItem(7, id);
    assert d1 == NoContent;
    var d2 := store.DeleteItem(7, id);
    assert d2.Status() == 404;
    var listed := store.GetItems(7);
    assert forall d :: d in listed ==> d.id != id;
  }
}

=== FILE: Lookup.dfy ===
/**
  The input rules of the lookup service: which search terms reach the database, the
  `LIKE` pattern and row limit they are searched with, and the default document type of
  the organisational-unit combo. The SQL and the row mapping are not part of the model.
 */
module Lookup {
  import opened Wrappers
  import opened Text

  /** The document type used when the caller gives none. */
  const DefaultDocumentTypeId: string := "UR"

  /** The bounds of the row limit. */
  const MinLimit: int := 1
  const MaxLimit: int := 100

  /** The row limit when the caller gives none. */
  const DefaultSearchLimit: int := 50

  /** The guard of both searches: a term that is present, not blank, and at least two
      UTF-16 code units long before trimming. Equivalently: something is left after
      trimming, and the untrimmed term is long enough. */
  function IsValidSearchTerm(term: Option<string>): (valid: bool)
    ensures valid <==> term.Some? && Trim(term.value) != "" && Utf16Length(term.value) >= 2
  {
    if term.None? then false
    else
      TrimBlank(term.value);
      !IsNullOrWhiteSpace(term) && Utf16Length(term.value) >= 2
  }

  /** `Math.Min(Math.Max(limit, 1), 100)`. */
  function ClampLimit(limit: int): (r: int)
    ensures MinLimit <= r <= MaxLimit
    ensures MinLimit <= limit <= MaxLimit ==> r == limit
    ensures limit < MinLimit ==> r == MinLimit
    ensures limit > MaxLimit ==> r == MaxLimit
  {
    var atLeastOne := if limit > MinLimit then limit else MinLimit;
    if atLeastOne < MaxLimit then atLeastOne else MaxLimit
  }

  /** The `LIKE` pattern: the trimmed term between two `%` wildcards. */
  function SearchPattern(term: string): (p: string)
    ensures |p| >= 2 && p[0] == '%' && p[|p| - 1] == '%'
    ensures p[1..|p| - 1] == Trim(term)
  {
    "%" + Trim(term) + "%"
  }

  /** What a search does with its inputs: nothing, or one query with a pattern and a
      row limit. */
  datatype SearchQuery = NoQuery | Query(pattern: string, limit: int)

  /** The input handling shared by `SearchPartnersAsync` and `SearchArticlesAsync`: an
      invalid term gives the empty list without a query; a valid one is queried with
      its pattern and the clamped limit (`DefaultSearchLimit` when the caller gives
      none). */
  function SearchPlan(term: Option<string>, limit: int): (q: SearchQuery)
    ensures q.Query? <==> IsValidSearchTerm(term)
    ensures q.Query? ==> q.pattern == SearchPattern(term.value) && MinLimit <= q.limit <= MaxLimit
    ensures q.Query? && MinLimit <= limit <= MaxLimit ==> q.limit == limit
  {
    if !IsValidSearchTerm(term) then NoQuery
    else Query(SearchPattern(term.value), ClampLimit(limit))
  }

  /** The rows a search returns: none without a query, otherwise what the query gives. */
  function SearchResults<T>(q: SearchQuery, rows: seq<T>): (r: seq<T>)
    ensures q.NoQuery? ==> r == []
    ensures q.Query? ==> r == rows
  {
    if q.NoQuery? then [] else rows
  }

  /** Trimming leaves nothing exactly when the string is blank. */
  lemma TrimBlank(s: string)
    ensures Trim(s) == "" <==> IsNullOrWhiteSpace(Some(s))
  {
    var i := LeadingCount(s, IsWhiteSpace);
    var r := Trim(s);
    if r == "" {
      assert forall k :: 0 <= k < |s| ==> (k < i || i <= k) && IsWhiteSpace(s[k]);
    } else {
      assert s[i] == r[0] && !IsWhiteSpace(s[i]);
    }
  }

  /** Every query searches for something: the pattern holds at least one character
      between its wildcards, and that text is not blank at either end. */
  lemma QueriedPatternNotBlank(term: Option<string>, limit: int)
    requires IsValidSearchTerm(term)
    ensures var q := SearchPlan(term, limit);
      && |q.pattern| >= 3
      && !IsWhiteSpace(q.pattern[1]) && !IsWhiteSpace(q.pattern[|q.pattern| - 2])
  {
    TrimBlank(term.value);
  }

  /** The length guard looks at the untrimmed term: a padded one-character term passes
      and is searched for by its single character, while the bare character is refused. */
  lemma PaddedShortTermPasses(limit: int)
    ensures SearchPlan(Some(" a"), limit) == Query("%a%", ClampLimit(limit))
    ensures SearchPlan(Some("a"), limit) == NoQuery
  {
    assert Trim(" a") == "a" by {
      assert LeadingCount(" a", IsWhiteSpace) == 1 by {
        assert LeadingCount(" a"[1..], IsWhiteSpace) == 0;
      }
    }
  }

  /** A caller that gives no limit gets up to 50 rows: the default is already in range. */
  lemma DefaultLimitKept(term: Option<string>)
    requires IsValidSearchTerm(term)
    ensures SearchPlan(term, DefaultSearchLimit) == Query(SearchPattern(term.value), 50)
  {
  }

  /** A single character outside the Basic Multilingual Plane is two code units long, so
      it passes the length guard on its own. */
  lemma SupplementaryTermQueried(limit: int)
    ensures SearchPlan(Some("\U{1F600}"), limit) == Query("%\U{1F600}%", ClampLimit(limit))
  {
    assert Trim("\U{1F600}") == "\U{1F600}" by {
      assert LeadingCount("\U{1F600}", IsWhiteSpace) == 0;
    }
  }

  /** The document type given to the org-unit combo: the default for an absent or blank
      argument, otherwise the argument unchanged. */
  function EffectiveDocumentTypeId(docTypeId: Option<string>): (r: string)
    ensures IsNullOrWhiteSpace(docTypeId) ==> r == DefaultDocumentTypeId
    ensures !IsNullOrWhiteSpace(docTypeId) ==> r == docTypeId.value
    ensures !IsNullOrWhiteSpace(Some(r))
  {
    if IsNullOrWhiteSpace(docTypeId) then
      assert DefaultDocumentTypeId[0] == 'U';
      DefaultDocumentTypeId
    else docTypeId.value
  }
}

=== FILE: Text.dfy ===
/**
  String helpers shared by the controller, the audit middleware and the lookup service:
  .NET's notion of white space, trimming, and the decimal rendering of a length.
  Strings are sequences of Unicode scalar values; no normalisation or case folding.
 */
module Text {
  import opened Wrappers

  /** `Char.IsWhiteSpace`: the Unicode separator categories Zs, Zl and Zp,
      plus the control characters U+0009 to U+000D, U+0085 and U+00A0. */
  predicate IsWhiteSpace(c: char)
  {
    || c == ' '
    || ('\t' <= c <= '\r')
    || c == '\U{0085}'
    || c == '\U{00A0}'
    || c == '\U{1680}'
    || ('\U{2000}' <= c <= '\U{200A}')
    || c == '\U{2028}'
    || c == '\U{2029}'
    || c == '\U{202F}'
    || c == '\U{205F}'
    || c == '\U{3000}'
  }

  /** `string.IsNullOrWhiteSpace`: absent, empty, or made only of white space. */
  predicate IsNullOrWhiteSpace(s: Option<string>)
  {
    match s
    case None => true
    case Some(t) => forall k :: 0 <= k < |t| ==> IsWhiteSpace(t[k])
  }

  /** `string.IsNullOrEmpty`. */
  predicate IsNullOrEmpty(s: Option<string>)
  {
    s.None? || s.value == ""
  }

  /** The number of leading characters of `s` that `drop` removes. */
  function LeadingCount(s: string, drop: char -> bool): (n: nat)
    ensures n <= |s|
    ensures forall k :: 0 <= k < n ==> drop(s[k])
    ensures n < |s| ==> !drop(s[n])
  {
    if |s| == 0 || !drop(s[0]) then 0 else 1 + LeadingCount(s[1..], drop)
  }

  /** The number of trailing characters of `s` that `drop` removes. */
  function TrailingCount(s: string, drop: char -> bool): (n: nat)
    ensures n <= |s|
    ensures forall k :: |s| - n <= k < |s| ==> drop(s[k])
    ensures n < |s| ==> !drop(s[|s| - n - 1])
  {
    if |s| == 0 || !drop(s[|s| - 1]) then 0 else 1 + TrailingCount(s[..|s| - 1], drop)
  }

  /**
    `String.Trim(...)`: removes every leading, then every trailing, character that `drop`
    selects. The result is a contiguous piece of `s` whose ends `drop` keeps, and
    everything removed around it is droppable.
   */
  function TrimBy(s: string, drop: char -> bool): (r: string)
    ensures |r| > 0 ==> !drop(r[0]) && !drop(r[|r| - 1])
    ensures var i := LeadingCount(s, drop);
      && i + |r| <= |s|
      && s[i..i + |r|] == r
      && (forall k :: 0 <= k < i ==> drop(s[k]))
      && (forall k :: i + |r| <= k < |s| ==> drop(s[k]))
  {
    var t := s[LeadingCount(s, drop)..];
    t[..|t| - TrailingCount(t, drop)]
  }

  /** `String.Trim()`: strips white space at both ends. */
  function Trim(s: string): (r: string)
  {
    TrimBy(s, IsWhiteSpace)
  }

  /** Trimming a trimmed string changes nothing. */
  lemma TrimByIdempotent(s: string, drop: char -> bool)
    ensures TrimBy(TrimBy(s, drop), drop) == TrimBy(s, drop)
  {
    var r := TrimBy(s, drop);
    assert LeadingCount(r, drop) == 0;
    assert TrailingCount(r, drop) == 0;
    assert r[0..][..|r| - 0] == r;
  }

  /** Wrapping a string free of droppable characters in one droppable character on each
      side, then trimming, gives back the string. */
  lemma TrimByWrapped(t: string, c: char, drop: char -> bool)
    requires drop(c)
    requires forall k :: 0 <= k < |t| ==> !drop(t[k])
    ensures TrimBy([c] + t + [c], drop) == t
  {
    var s := [c] + t + [c];
    if |t| == 0 {
      assert LeadingCount(s[1..], drop) == 1;
    } else {
      assert s[1..][0] == t[0];
      assert LeadingCount(s[1..], drop) == 0;
      var u := s[1..];
      assert u == t + [c];
      assert u[..|u| - 1] == t;
      assert TrailingCount(u[..|u| - 1], drop) == 0;
      assert u[..|u| - 1][..|u| - 1 - 0] == t;
    }
  }

  /** The decimal digit for `d`. */
  function DigitChar(d: nat): (c: char)
    requires d < 10
    ensures '0' <= c <= '9' && c as int - '0' as int == d
  {
    ('0' as int + d) as char
  }

  /** `long.ToString()` for a non-negative value: its decimal digits, most significant first. */
  function NatToString(n: nat): (s: string)
    ensures |s| > 0
    ensures forall k :: 0 <= k < |s| ==> '0' <= s[k] <= '9'
    ensures |s| > 1 ==> s[0] != '0'
  {
    if n < 10 then [DigitChar(n)] else NatToString(n / 10) + [DigitChar(n % 10)]
  }

  /** The value of a string of decimal digits. */
  function DecimalValue(s: string): nat
    requires forall k :: 0 <= k < |s| ==> '0' <= s[k] <= '9'
  {
    if |s| == 0 then 0 else DecimalValue(s[..|s| - 1]) * 10 + (s[|s| - 1] as int - '0' as int)
  }

  /** Reading back the rendered digits gives the number. */
  lemma {:induction false} DecimalRoundTrip(n: nat)
    ensures DecimalValue(NatToString(n)) == n
  {
    if n >= 10 {
      var s := NatToString(n);
      assert s[..|s| - 1] == NatToString(n / 10);
      DecimalRoundTrip(n / 10);
    }
  }

  /** `s.Length`: the number of UTF-16 code units, two for each character outside the
      Basic Multilingual Plane. */
  function Utf16Length(s: string): (n: nat)
    ensures |s| <= n <= 2 * |s|
    ensures n == |s| <==> forall k :: 0 <= k < |s| ==> s[k] < '\U{10000}'
  {
    if |s| == 0 then 0
    else (if s[0] < '\U{10000}' then 1 else 2) + Utf16Length(s[1..])
  }

  /** `s.StartsWith(prefix)`, ordinal. */
  predicate StartsWith(s: string, prefix: string)
  {
    |prefix| <= |s| && s[..|prefix|] == prefix
  }

  /** `s.EndsWith(suffix)`, ordinal. */
  predicate EndsWith(s: string, suffix: string)
  {
    |suffix| <= |s| && s[|s| - |suffix|..] == suffix
  }

  /** `s.Contains(part)`: `part` starts at some position of `s`. */
  predicate Contains(s: string, part: string)
  {
    StartsWith(s, part) || (|s| > 0 && Contains(s[1..], part))
  }

  /** A string contains every piece it is built around. */
  lemma {:induction false} ContainsInfix(a: string, part: string, b: string)
    ensures Contains(a + part + b, part)
  {
    var s := a + part + b;
    if |a| == 0 {
      assert s[..|part|] == part;
    } else {
      assert s[1..] == a[1..] + part + b;
      ContainsInfix(a[1..], part, b);
    }
  }

  /** `part` starts at position `i` of `s`. */
  predicate OccursAt(s: string, part: string, i: nat)
  {
    i + |part| <= |s| && s[i..i + |part|] == part
  }

  /** A string contains whatever occurs at one of its positions. */
  lemma ContainsAt(s: string, part: string, i: nat)
    ensures OccursAt(s, part, i) ==> Contains(s, part)
  {
    if OccursAt(s, part, i) {
      assert s == s[..i] + part + s[i + |part|..];
      ContainsInfix(s[..i], part, s[i + |part|..]);
    }
  }

  /** Whatever contains `part` has it at some position. */
  lemma {:induction false} ContainsHasPosition(s: string, part: string) returns (i: nat)
    requires Contains(s, part)
    ensures i + |part| <= |s| && s[i..i + |part|] == part
  {
    if StartsWith(s, part) {
      i := 0;
    } else {
      var j := ContainsHasPosition(s[1..], part);
      i := j + 1;
      assert s[1..][j..j + |part|] == s[i..i + |part|];
    }
  }
}

=== FILE: Wrappers.dfy ===
/** A value that may be absent: the model's stand-in for a C# `null` reference or an empty `Nullable<T>`. */
module Wrappers {

  datatype Option<+T> = None | Some(value: T) {

    /** The value, or `default` when absent (C#'s `??`). */
    function GetOr(default: T): T
    {
      match this
      case Some(v) => v
      case None => default
    }
  }
}
